=== FILE: README.md ===
# Tax-loss harvesting: a Dafny model of the selection-driven gains recalculation

The application shows a user's realised capital gains, split into short-term
(`stcg`) and long-term (`ltcg`) tiers. Each tier is a bucket of `profits` and
`losses`. The user ticks holdings in a table, and the page shows what the
realised gains would be if the ticked holdings were sold. This project models
the logic behind that page:

- **`Gains`** (`redux/harvestSlice.js`, `normalizeGains`): the two field-naming
  conventions of a gains object (`profits`/`losses` and the legacy
  `short`/`shortLoss`) and their normalisation into buckets. It also holds the
  sign partition of a single signed gain.
- **`AfterHarvest`** (`calculateAfterHarvest`): the baseline plus the sign
  partition of every selected holding's tier gains. It is proved equal to a
  reference sum over the selection, and its net equals the baseline net plus
  the selection's signed gain.
- **`HarvestSlice`**: the store record and the five reducers `setCapitalGains`,
  `setHoldings`, `toggleHolding`, `selectAllHoldings` and
  `clearSelectedHoldings`, written as pure state transitions. Each selection
  action leaves the after-harvest snapshot equal, after normalisation, to the
  aggregate of the current inputs ("consistent"). Toggle and select-all store
  exactly the aggregate object. Clear copies the baseline, which is exactly
  that object only once gains have been loaded.
- **`PostHarvest`** (`ultils/calculateCapitalGains.js`): the second, zero-based
  aggregator. It drops the selected holdings and sums the rest. Lemmas say
  where it and `calculateAfterHarvest` disagree.
- **`HoldingView`** (`componets/Holding.jsx`): fallback ids, the row mirror of
  the selection, the reset effect, the tri-state header checkbox, and the
  parent and child checkbox handlers. Each handler is a pure transition of
  the rows together with the store.
- **`HoldingSort`**: `getSortValue`, the stable sort behind `sortedRows`,
  `toggleSort`, and the first-four / show-all cut. The stable sort follows
  section 23.1.3.30 of ECMA-262, which requires `Array.prototype.sort` to be
  stable.
- **`AppCards`** (`App.jsx`): the money formatter's sign logic, the choice
  between the after-harvest and the pre-harvest data, the realised totals,
  and the saving banner.
- **`Scenario`**: a worked example. The baseline is 100/20 short-term and
  50/10 long-term. A short-term loss of 30 and a long-term gain of 15 are
  both selected. The page then shows 120 before, 105 after, and a saving
  of 15.

Numbers are mathematical reals. A holding tier's `gain` that is absent, not a
number, or NaN is `None` (`Holdings.Tier.gain`). Everywhere else `None` stands
for null or undefined only, and a NaN value has its own constructor where the
model needs one (`AppCards.JsNum`). The string that `toLocaleString` produces for a magnitude is a
function parameter `show`.

Some behaviours of the code differ from what a reader might expect. The
model follows the code in each case:

- `setHoldings` neither clears the selection nor recomputes the snapshot
  (`redux/harvestSlice.js:74-80`). The selection is cleared by the table's
  effect (`componets/Holding.jsx:45-49`). `HarvestSlice.SetHoldingsCanLeaveStaleSnapshot`
  shows that the store alone can be left inconsistent.
  `HoldingView.ReloadClearsSelection` shows that the effect that always
  follows a reload restores consistency.
- `setCapitalGains` does not re-apply an existing selection. Its result is
  consistent whenever nothing is selected; a selection with any effect is
  left stale.
- Fallback ids are unique only up to the payload. Two holdings with the same
  truthy `id` or `coin` keep the same id. `selectAllHoldings` then finds the
  first of them twice and counts its gain twice
  (`HarvestSlice.SelectAllWithSharedId`).
- `format`'s `forceSign` flag never prints a `+`. For every value except
  JavaScript's `-0` the flag changes no output at all
  (`AppCards.ForceSignIrrelevant`).
- Before the first load the store holds the legacy-shaped zero baseline. The
  cards read `profits`/`losses` directly, so they print `$ 0` profits and a
  `$ NaN` total (`AppCards.InitialCardsShowNaN`).
- The two aggregators disagree. Selecting a holding with a loss adds that
  loss in `calculateAfterHarvest`. In `calculatePostHarvestGains` it removes
  the holding altogether (`PostHarvest.AggregatorsDisagreeOnSelectedLoss`).

## Model

| member | source | states |
|---|---|---|
| `Gains.NormalizeTier` | Tax-loss-Harvesting/src/redux/harvestSlice.js:18-27 | `profits` is taken if present, else legacy `short`, else 0. `losses` likewise falls back to `shortLoss`, then 0. An absent tier gives zeros. |
| `Gains.Normalize` | Tax-loss-Harvesting/src/redux/harvestSlice.js:18-27 | Both tiers follow the per-tier rule, and a missing object normalises to all zeros. |
| `Gains.AsObject` | Tax-loss-Harvesting/src/redux/harvestSlice.js:18-27 | The `{profits, losses}` object built from a snapshot is canonical and normalises back to that snapshot. |
| `Gains.LegacyObject` | Tax-loss-Harvesting/src/redux/harvestSlice.js:3-27 | A snapshot written in the legacy `short`/`shortLoss` shape is not canonical, yet normalises to the same snapshot. |
| `Gains.NormalizeIdempotent` | Tax-loss-Harvesting/src/redux/harvestSlice.js:18-27 | Normalising the object built from a normalised snapshot gives that snapshot back. |
| `Gains.NewConventionWins` | Tax-loss-Harvesting/src/redux/harvestSlice.js:20-25 | When a tier carries both conventions, `profits`/`losses` take precedence. |
| `Gains.SignPartition` | Tax-loss-Harvesting/src/redux/harvestSlice.js:44-51 | A gain's profit and loss parts are non-negative and at most one is non-zero. Their net is the gain. A zero or unusable gain contributes nothing. |
| `Gains.AddGain` | Tax-loss-Harvesting/src/redux/harvestSlice.js:44-51 | A positive gain is added to `profits`. A negative gain adds its magnitude to `losses`. A zero or missing gain leaves the bucket unchanged. This equals adding the gain's sign partition. |
| `AfterHarvest.HoldingEffect` | Tax-loss-Harvesting/src/redux/harvestSlice.js:42-51 | One looked-up holding adds non-negative amounts to every bucket. An id with no holding adds nothing. |
| `AfterHarvest.AddHolding` | Tax-loss-Harvesting/src/redux/harvestSlice.js:41-52 | One iteration of the loop adds exactly the holding's effect to the running totals. |
| `AfterHarvest.Accumulate` | Tax-loss-Harvesting/src/redux/harvestSlice.js:41-52 | Folding the loop over the selection gives the start value plus the reference sum of the selected holdings' effects. |
| `AfterHarvest.CalculateAfterHarvest` | Tax-loss-Harvesting/src/redux/harvestSlice.js:29-64 | A missing baseline gives all zeros. Otherwise the result is the normalised baseline plus the selection's effect, and no bucket falls below the baseline's. An empty selection returns exactly the normalised baseline. |
| `AfterHarvest.SelectionEffectAppend` | Tax-loss-Harvesting/src/redux/harvestSlice.js:41-52 | The effect of a concatenated selection is the sum of the parts' effects. |
| `AfterHarvest.MarginalContributionsAdd` | Tax-loss-Harvesting/src/redux/harvestSlice.js:29-64 | What selection `a ++ b` adds over the baseline equals what `a` adds plus what `b` adds, with no cross terms. |
| `AfterHarvest.StaleIdIgnored` | Tax-loss-Harvesting/src/redux/harvestSlice.js:42-43 | A selected id that matches no holding has no effect, wherever it sits in the selection. |
| `AfterHarvest.NeutralHoldingChangesNothing` | Tax-loss-Harvesting/src/redux/harvestSlice.js:44-51 | Selecting a holding whose tier gains are zero, missing or NaN changes no bucket. |
| `AfterHarvest.SelectionEffectNet` | Tax-loss-Harvesting/src/redux/harvestSlice.js:41-52 | The net of a selection's effect is the sum of the selected holdings' signed tier gains. |
| `AfterHarvest.AfterHarvestNet` | Tax-loss-Harvesting/src/redux/harvestSlice.js:29-64 | The realised gain after harvesting is the baseline's realised gain plus the selected holdings' signed gains. |
| `AfterHarvest.SelectionOfOne` | Tax-loss-Harvesting/src/redux/harvestSlice.js:41-52 | A one-id selection contributes exactly the looked-up holding's effect. |
| `AfterHarvest.SelectionOfTwo` | Tax-loss-Harvesting/src/redux/harvestSlice.js:41-52 | A two-id selection contributes exactly the two looked-up holdings' effects. |
| `HarvestSlice.SetCapitalGains` | Tax-loss-Harvesting/src/redux/harvestSlice.js:70-73 | Both snapshots become the same canonical object, equal to the payload after normalisation. Holdings and selection are untouched. The store is consistent if nothing is selected. |
| `HarvestSlice.StoreId` | Tax-loss-Harvesting/src/redux/harvestSlice.js:78 | The stored id is never empty. It is a truthy `id` if there is one, else a truthy `coin`, else `holding-<idx>`. |
| `HarvestSlice.SetHoldings` | Tax-loss-Harvesting/src/redux/harvestSlice.js:74-80 | Length and order are kept and each holding gets its stored id. The selection and both gains snapshots are left unchanged. |
| `HarvestSlice.FallbackIdsDistinct` | Tax-loss-Harvesting/src/redux/harvestSlice.js:76-79 | When no holding has an id or a coin, the positional fallback ids are pairwise distinct. |
| `HarvestSlice.Remove` | Tax-loss-Harvesting/src/redux/harvestSlice.js:86 | The filter never makes the list longer. Its membership contract is `RemoveMembers`. |
| `HarvestSlice.RemoveMembers` | Tax-loss-Harvesting/src/redux/harvestSlice.js:86 | The filter keeps exactly the ids different from the removed one and introduces no duplicate. |
| `HarvestSlice.RemoveAppend` | Tax-loss-Harvesting/src/redux/harvestSlice.js:86 | Filtering distributes over concatenation, so the remaining ids keep their relative order. |
| `HarvestSlice.ToggleSelection` | Tax-loss-Harvesting/src/redux/harvestSlice.js:82-87 | Membership of the toggled id flips and no other id's membership changes. An absent id is appended at the end and a present one is filtered out. No duplicate is introduced. |
| `HarvestSlice.ToggleTwiceAbsent` | Tax-loss-Harvesting/src/redux/harvestSlice.js:82-87 | Toggling an absent id twice restores the original selection. |
| `HarvestSlice.ToggleTwicePresent` | Tax-loss-Harvesting/src/redux/harvestSlice.js:82-87 | Toggling an id that occurs once, twice, keeps the same ids but moves that id to the end. |
| `HarvestSlice.ToggleTwicePresentGeneral` | Tax-loss-Harvesting/src/redux/harvestSlice.js:82-87 | Toggling any present id twice removes all its occurrences and appends it once at the end. |
| `HarvestSlice.ToggleHolding` | Tax-loss-Harvesting/src/redux/harvestSlice.js:81-94 | The selection is toggled; the holdings and the baseline are untouched. |
| `HarvestSlice.ToggleHoldingKeeps` | Tax-loss-Harvesting/src/redux/harvestSlice.js:81-94 | After a toggle the stored snapshot is exactly the `{profits, losses}` object of the aggregate of the current baseline, holdings and new selection, and the stored shapes stay renderable and canonical. |
| `HarvestSlice.SelectAllHoldings` | Tax-loss-Harvesting/src/redux/harvestSlice.js:95-102 | The selection becomes the holdings' ids in list order; the holdings and the baseline are untouched. |
| `HarvestSlice.SelectAllKeeps` | Tax-loss-Harvesting/src/redux/harvestSlice.js:95-102 | After select-all the stored snapshot is exactly the aggregate object of the full selection, and the stored shapes stay renderable and canonical. |
| `HarvestSlice.ClearSelectedHoldings` | Tax-loss-Harvesting/src/redux/harvestSlice.js:103-106 | The selection is emptied and the baseline is copied into the snapshot unchanged. |
| `HarvestSlice.ClearSelectedKeeps` | Tax-loss-Harvesting/src/redux/harvestSlice.js:103-106 | The copied baseline equals, after normalisation, the aggregate of an empty selection. When the baseline is in `{profits, losses}` form, the copy is exactly the aggregate object. |
| `HarvestSlice.ClearAfterLoadIsExact` | Tax-loss-Harvesting/src/redux/harvestSlice.js:66-106 | After `setCapitalGains`, clearing stores exactly the aggregate object of the loaded baseline with an empty selection. |
| `HarvestSlice.ClearOnLegacyBaselineNotExact` | Tax-loss-Harvesting/src/redux/harvestSlice.js:3-16 | Clearing on the initial state copies the legacy `{short, shortLoss}` baseline. It normalises to the aggregate but is not the object `calculateAfterHarvest` returns. |
| `HarvestSlice.Reduce` | Tax-loss-Harvesting/src/redux/harvestSlice.js:69-107 | Every reducer keeps the store renderable and, once loaded, canonical. Every selection action leaves it consistent. |
| `HarvestSlice.SelectionActionsRestoreConsistency` | Tax-loss-Harvesting/src/redux/harvestSlice.js:81-106 | Whatever the state before, each of the three selection actions leaves the snapshot equal, after normalisation, to the aggregate. |
| `HarvestSlice.RunPreservesInvariants` | Tax-loss-Harvesting/src/redux/harvestSlice.js:3-107 | From a renderable state, any sequence of actions keeps the store renderable and keeps loaded gains canonical. |
| `HarvestSlice.InitialState` | Tax-loss-Harvesting/src/redux/harvestSlice.js:3-16 | The store starts with no holdings, no selection and no after-harvest snapshot. Its baseline is in the legacy shape, so it renders but is not canonical, and it normalises to zeros. |
| `HarvestSlice.SetHoldingsCanLeaveStaleSnapshot` | Tax-loss-Harvesting/src/redux/harvestSlice.js:74-94 | Toggling on a loss-making holding gives a consistent store; replacing the holdings afterwards leaves a snapshot that no longer matches the aggregate. |
| `HarvestSlice.NoHoldingsNoEffect` | Tax-loss-Harvesting/src/redux/harvestSlice.js:41-52 | With no holdings, any selection leaves the normalised baseline unchanged. |
| `HarvestSlice.LossMovesSnapshot` | Tax-loss-Harvesting/src/redux/harvestSlice.js:44-51 | Adding a holding with a short-term loss changes the snapshot. |
| `HarvestSlice.SelectAllWithSharedId` | Tax-loss-Harvesting/src/redux/harvestSlice.js:95-101 | With two holdings that share an id, select-all counts the first holding's effect twice. |
| `PostHarvest.AddSigned` | Tax-loss-Harvesting/src/ultils/calculateCapitalGains.js:12-16 | A value of 0 or more goes to `profits` and a negative value adds its magnitude to `losses`. This is the same partition as the other aggregator's. |
| `PostHarvest.Step` | Tax-loss-Harvesting/src/ultils/calculateCapitalGains.js:6-16 | A selected holding leaves the totals unchanged. An unselected one adds its sign-partitioned tier values. |
| `PostHarvest.CalculatePostHarvestGains` | Tax-loss-Harvesting/src/ultils/calculateCapitalGains.js:1-20 | The result starts from zero buckets with no baseline input, and all four buckets are non-negative. |
| `PostHarvest.Unselected` | Tax-loss-Harvesting/src/ultils/calculateCapitalGains.js:6-10 | A holding is counted exactly when its id is not in the selection. |
| `PostHarvest.PostHarvestSumsUnselected` | Tax-loss-Harvesting/src/ultils/calculateCapitalGains.js:5-17 | The result is the sign-partitioned sum of the unselected holdings only, so a selected holding adds nothing. |
| `PostHarvest.EmptySelectionSumsAll` | Tax-loss-Harvesting/src/ultils/calculateCapitalGains.js:5-17 | An empty selection yields the sign-partitioned sum over all holdings. |
| `PostHarvest.UnselectedEmpty` | Tax-loss-Harvesting/src/ultils/calculateCapitalGains.js:6-10 | When every holding's id is selected, no holding is left to count. |
| `PostHarvest.SelectEverythingGivesZero` | Tax-loss-Harvesting/src/ultils/calculateCapitalGains.js:5-17 | Selecting every holding yields all-zero buckets. |
| `PostHarvest.OnlyMembershipMatters` | Tax-loss-Harvesting/src/ultils/calculateCapitalGains.js:5-6 | Two selections that agree on which holdings are selected give the same result. Unmatched ids, repetition and order have no effect. |
| `PostHarvest.AggregatorsDisagreeOnSelectedLoss` | Tax-loss-Harvesting/src/ultils/calculateCapitalGains.js:9-13 | For one selected holding with a short-term loss, one aggregator adds the loss to the baseline and the other reports no short-term loss. |
| `PostHarvest.AggregatorsDisagreeOnEmptySelection` | Tax-loss-Harvesting/src/ultils/calculateCapitalGains.js:2-17 | With nothing selected, one aggregator returns the baseline and the other sums every holding. |
| `HoldingView.EnsureId` | Tax-loss-Harvesting/src/componets/Holding.jsx:28-34 | A truthy id is kept. Otherwise the id becomes `<coin>-<idx>`, with a missing coin written `undefined`. Every other field is unchanged. |
| `HoldingView.InitRows` | Tax-loss-Harvesting/src/componets/Holding.jsx:46 | One unticked row per holding, in order, carrying the holding with its ensured id. |
| `HoldingView.OnHoldingsChanged` | Tax-loss-Harvesting/src/componets/Holding.jsx:45-49 | After the holdings change, every row is unticked and the store's selection is empty and consistent. For store-loaded holdings the rows mirror the store. |
| `HoldingView.ReloadClearsSelection` | Tax-loss-Harvesting/src/componets/Holding.jsx:45-49 | `setHoldings` followed by the table's effect empties the selection and leaves the rows and store in sync, whatever was selected before. |
| `HoldingView.HeaderCheckboxStates` | Tax-loss-Harvesting/src/componets/Holding.jsx:52-53 | `allChecked` holds iff rows exist and none is unticked. `someChecked` holds iff some row is ticked and some is not. They never both hold. |
| `HoldingView.AllChecked` | Tax-loss-Harvesting/src/componets/Holding.jsx:52 | `allChecked`: there is a row and every row is ticked. Its characterisation is in `HeaderCheckboxStates`. |
| `HoldingView.SomeChecked` | Tax-loss-Harvesting/src/componets/Holding.jsx:53 | `someChecked`: some row is ticked and not all are. Its characterisation is in `HeaderCheckboxStates`. |
| `HoldingView.UniformHeader` | Tax-loss-Harvesting/src/componets/Holding.jsx:52-53 | When every row carries the same flag, the header is checked iff that flag is set and rows exist, and is never indeterminate. |
| `HoldingView.ParentCheckbox` | Tax-loss-Harvesting/src/componets/Holding.jsx:55-59 | Every row's flag becomes the clicked value, keeping row count, order and holdings. A tick dispatches `selectAllHoldings` and an untick `clearSelectedHoldings`. |
| `HoldingView.HeaderDispatch` | Tax-loss-Harvesting/src/componets/Holding.jsx:58 | Holdings and baseline are kept. A tick selects every holding's id in list order, and an untick empties the selection. |
| `HoldingView.TickAll` | Tax-loss-Harvesting/src/componets/Holding.jsx:56 | Every row keeps its holding and takes the clicked flag. |
| `HoldingView.HeaderAfterClick` | Tax-loss-Harvesting/src/componets/Holding.jsx:52-59 | After a header click the header is checked iff it was ticked and rows exist, and is never indeterminate. |
| `HoldingView.HeaderDispatchConsistent` | Tax-loss-Harvesting/src/componets/Holding.jsx:57-58 | Whichever action the header dispatches, the store ends consistent. |
| `HoldingView.UniformSync` | Tax-loss-Harvesting/src/componets/Holding.jsx:55-59 | Rows all carrying one flag are in sync with a store whose selection is every id in order when the flag is set and empty otherwise. |
| `HoldingView.HeaderClickInSync` | Tax-loss-Harvesting/src/componets/Holding.jsx:55-59 | After a header click the rows mirror the store's selection. |
| `HoldingView.HeaderClickSyncs` | Tax-loss-Harvesting/src/componets/Holding.jsx:55-59 | After a header click the rows mirror the store's selection and the store is consistent. |
| `HoldingView.ChildCheckbox` | Tax-loss-Harvesting/src/componets/Holding.jsx:61-68 | Only rows with the clicked id change, count and order are kept, and a toggle of that id is dispatched. |
| `HoldingView.RowClickKeepsSync` | Tax-loss-Harvesting/src/componets/Holding.jsx:61-68 | Clicking a row of an in-sync table keeps rows and store in sync and the store consistent. |
| `HoldingSort.SortValue` | Tax-loss-Harvesting/src/componets/Holding.jsx:71-84 | `getSortValue`: the balance of the short- or long-term tier, the quantity or the price, each read as 0 when missing. Sorting by it is stated in `SortedRows`. |
| `HoldingSort.InitialSortConfig` | Tax-loss-Harvesting/src/componets/Holding.jsx:42 | No sort key and ascending direction. `InitialOrderKept` states what this means for the table. |
| `HoldingSort.InitialOrderKept` | Tax-loss-Harvesting/src/componets/Holding.jsx:42-103 | Before any header click the rows keep their loaded order, and the first click on a column sorts it ascending. |
| `HoldingSort.Insert` | Tax-loss-Harvesting/src/componets/Holding.jsx:89-93 | Inserting a row into a sorted list gives a sorted list holding the old rows plus the new one. |
| `HoldingSort.InsertWithRank` | Tax-loss-Harvesting/src/componets/Holding.jsx:89-93 | Among rows of equal rank, insertion places the new row last and keeps the others in order. |
| `HoldingSort.StableSort` | Tax-loss-Harvesting/src/componets/Holding.jsx:89-93 | The result is sorted by rank and is a permutation of the input. |
| `HoldingSort.StableSortWithRank` | Tax-loss-Harvesting/src/componets/Holding.jsx:89-93 | Rows with equal sort value keep their original relative order. |
| `HoldingSort.SortedRows` | Tax-loss-Harvesting/src/componets/Holding.jsx:71-94 | With no key the rows are unchanged. Otherwise the result is a permutation, non-decreasing (asc) or non-increasing (desc) by sort value, with missing values read as 0 and ties kept in original order. |
| `HoldingSort.StableSortOfSorted` | Tax-loss-Harvesting/src/componets/Holding.jsx:89-93 | A list already in order comes out of the sort unchanged. |
| `HoldingSort.SortedRowsIdempotent` | Tax-loss-Harvesting/src/componets/Holding.jsx:86-94 | Sorting the sorted rows again under the same configuration changes nothing. |
| `HoldingSort.ToggleSort` | Tax-loss-Harvesting/src/componets/Holding.jsx:98-103 | The clicked key becomes the sort key. It flips direction if it was already current, otherwise it starts ascending. |
| `HoldingSort.ToggleSortTwice` | Tax-loss-Harvesting/src/componets/Holding.jsx:98-103 | Clicking the current key twice restores the configuration. Clicking a new key twice sorts it descending. |
| `HoldingSort.VisibleRows` | Tax-loss-Harvesting/src/componets/Holding.jsx:96 | All sorted rows when expanded, otherwise the first min(4, n). The shown rows are always a prefix. |
| `HoldingSort.ViewToggleShownIffItMatters` | Tax-loss-Harvesting/src/componets/Holding.jsx:272-279 | The "View all / View less" link exists exactly when expanding changes what is visible, that is, when there are more than four rows. |
| `AppCards.JsSub` | Tax-loss-Harvesting/src/App.jsx:43-44 | Subtraction gives a number only when both operands are numbers; `undefined` or NaN yields NaN. |
| `AppCards.Format` | Tax-loss-Harvesting/src/App.jsx:27-34 | A negative number prints as `- $ ` and its magnitude. Any other number prints as `$ ` and itself. A non-number prints `$ 0` and NaN prints `$ NaN`. The text starts with `-` iff the value is a negative number. |
| `AppCards.ForceSignIrrelevant` | Tax-loss-Harvesting/src/App.jsx:29-31 | `forceSign` never changes the output, because for non-negative values the magnitude is the value. |
| `AppCards.FormatNegation` | Tax-loss-Harvesting/src/App.jsx:27-34 | Negating a positive amount only prepends `- `. |
| `AppCards.Realised` | Tax-loss-Harvesting/src/App.jsx:43-44 | The realised value is a number iff both tiers carry `profits` and `losses`. On such an object it is the net of the normalised snapshot. |
| `AppCards.CardGain` | Tax-loss-Harvesting/src/App.jsx:95-100 | The card's `Gain`, computed left to right, equals the realised value the banner compares. The same expression is used at lines 123-128. |
| `AppCards.RealisedOfCanonical` | Tax-loss-Harvesting/src/App.jsx:43-44 | On a canonical object the realised value is the net of its normalised snapshot. |
| `AppCards.HasSelection` | Tax-loss-Harvesting/src/App.jsx:37 | `hasSelection`: the selection list is non-empty. `PostData` and `PostRealised` state its effect. |
| `AppCards.PreRealised` | Tax-loss-Harvesting/src/App.jsx:43 | `preRealised` is a number iff the baseline is canonical. On a loaded store it is the net of the normalised baseline. |
| `AppCards.PostRealised` | Tax-loss-Harvesting/src/App.jsx:40-44 | `postRealised` equals `preRealised` with nothing selected, and otherwise is the realised value of the after-harvest snapshot. |
| `AppCards.ShowSaving` | Tax-loss-Harvesting/src/App.jsx:47 | The banner needs a selection and a numeric drop. A `NaN` on either side never shows it, so both objects must be canonical. |
| `AppCards.PostData` | Tax-loss-Harvesting/src/App.jsx:37-40 | `postData` is the after-harvest snapshot iff something is selected, otherwise the pre-harvest object. |
| `AppCards.RenderCard` | Tax-loss-Harvesting/src/App.jsx:95-100 | The card's total prints the realised value. |
| `AppCards.RenderCards` | Tax-loss-Harvesting/src/App.jsx:37-47 | The banner is shown iff `showSaving`, and a saving text exists exactly then. That text never starts with `-`. With an empty selection the post card equals the pre card and no saving is shown. |
| `AppCards.SavingIsTheDrop` | Tax-loss-Harvesting/src/App.jsx:130 | When shown, the saving is `preRealised − postRealised`, is strictly positive, and prints without a sign. |
| `AppCards.BannerIffSelectionLoses` | Tax-loss-Harvesting/src/App.jsx:43-47 | On a loaded, consistent store with a selection, the effective total is the baseline total plus the selection's signed gains. The banner shows iff those gains sum to a loss, and the saving is that loss. |
| `AppCards.InitialCardsShowNaN` | Tax-loss-Harvesting/src/App.jsx:27-47 | Before the first load, profits print `$ 0`, the total prints `$ NaN`, both cards agree, and no saving is shown. |
| `Scenario.ProjectedAB` | Tax-loss-Harvesting/src/redux/harvestSlice.js:29-64 | In the worked example, selecting both holdings gives 100/50 short-term and 65/10 long-term. |
| `Scenario.CardsAB` | Tax-loss-Harvesting/src/App.jsx:43-47 | In the worked example the cards show 120 before and 105 after, and the banner shows a saving of 15. |
| `Holdings.TierGain` | Tax-loss-Harvesting/src/redux/harvestSlice.js:43-48 | The guard `h.stcg && typeof gain === 'number' && !isNaN(gain)`: a gain is read iff the tier exists and its gain is a number. Where the skip matters is `AfterHarvest.NeutralHoldingChangesNothing`. |
| `Holdings.Find` | Tax-loss-Harvesting/src/redux/harvestSlice.js:42 | `find` returns nothing iff no holding has the id, and otherwise returns the first holding with that id. |
| `Holdings.NatToStringInjective` | Tax-loss-Harvesting/src/redux/harvestSlice.js:78 | Distinct indices render as distinct decimal strings, so the positional fallback ids differ. |

## Left out

- `abbreviateNumber` (`componets/Holding.jsx:11-26`) is left out. It formats floating point with `toFixed` and a regular expression.
- The magnitude text of `format` comes from `toLocaleString`, which is locale-dependent. It is the parameter `show`. NaN is assumed to print as `NaN`.
- JavaScript's `-0` is not modelled, since reals have no negative zero. `format(-0)` would print `$ -0` in the code.
- AppCards.ForceSignIrrelevant: holds for every real, but not for JavaScript's `-0`, where `format(-0, true)` prints `$ 0` and `format(-0)` prints `$ -0`.
- Floating-point rounding is not modelled. All sums are exact, so `AppCards.CardGain`'s contract holds over reals but can fail by one ulp in the code.
- NaN or non-numeric values in the baseline's `profits`/`losses` are not modelled. So are the `Number(x) || 0` and `isNaN` resets in `calculateAfterHarvest`. Such values have no representation: `None` in a gains object stands for null or undefined only.
- Only `undefined` is modelled for a missing card field. A `null` field would subtract as 0 in the code.
- NaN or non-numeric `balance`, `totalHolding` and `currentPrice` values in the sort are not modelled. Missing ones read as 0, as in `getSortValue`.
- Sort keys other than the four column keys are not modelled. `getSortValue` returns 0 for them, and a stable sort would leave the rows unchanged.
- PostHarvest.CalculatePostHarvestGains: takes numeric `stcg`/`ltcg` values. With the tier objects the application actually has, the code produces NaN.
- React and Redux mechanics are not modelled: hooks, memoisation, dispatch, and Immer drafts. Each reducer, effect and handler is a pure function of the rows and the store.
- `harvestThunks.js` is left out, because it is I/O (dynamic JSON imports and logging). It rewrites ids to `coin || holding-<idx>` before `setHoldings`. The model's `setHoldings` accepts any payload.
- `store.js`, `Harvesting.jsx` and `DropdownAlert.jsx` are not part of this model. They are wiring and presentation.
- Styling, tooltips and the sort-arrow glyphs are left out.
- HoldingSort.SortedRows: states sortedness, permutation and stability but not uniqueness. That `Array.prototype.sort` must return exactly this list is not proved separately.
- HarvestSlice.ClearSelectedKeeps: promises equality after normalisation only. On the initial state (the table clears on mount) the copy is the legacy `{short, shortLoss}` object, not a `{profits, losses}` one.
- HoldingView.EnsureId: models a missing coin as `undefined` only. A `null` coin would give the id `null-<idx>`.
- HarvestSlice.RemoveMembers: states membership (with `RemoveAppend`, order) but not the multiset of the result.

=== FILE: after_harvest.dfy ===
/** `calculateAfterHarvest`: the baseline plus the realised gains of every
    selected holding ("simulate selling the selected holdings"). */
module AfterHarvest {
  import opened Wrappers
  import opened Gains
  import opened Holdings

  /** What one looked-up holding adds when it is sold: the sign partition of
      its short-term and long-term gains; a missing holding adds nothing. */
  function HoldingEffect(h: Option<Holding>): (e: Snapshot)
    ensures NonNegative(e)
    ensures h.None? ==> e == ZeroSnapshot
  {
    if h.None? then ZeroSnapshot
    else
      SignPartition(TierGain(h.value.stcg));
      SignPartition(TierGain(h.value.ltcg));
      Snapshot(GainBucket(TierGain(h.value.stcg)), GainBucket(TierGain(h.value.ltcg)))
  }

  /** Reference definition: the total effect of a selection, one term per
      selected id, each term the effect of the first holding with that id. */
  function SelectionEffect(holdings: seq<Holding>, ids: seq<Id>): (e: Snapshot)
    ensures NonNegative(e)
    decreases |ids|
  {
    if ids == [] then ZeroSnapshot
    else Plus(HoldingEffect(Find(holdings, ids[0])), SelectionEffect(holdings, ids[1..]))
  }

  /** The signed realised gain of one looked-up holding, both tiers. */
  function HoldingGain(h: Option<Holding>): real
  {
    if h.Some? then OrZero(TierGain(h.value.stcg)) + OrZero(TierGain(h.value.ltcg)) else 0.0
  }

  /** The signed realised gain of a whole selection. */
  function SelectedGain(holdings: seq<Holding>, ids: seq<Id>): real
    decreases |ids|
  {
    if ids == [] then 0.0 else HoldingGain(Find(holdings, ids[0])) + SelectedGain(holdings, ids[1..])
  }

  /** One iteration of the `forEach`: look the id up, and if a holding is
      found add each usable tier gain to its bucket. */
  function AddHolding(acc: Snapshot, h: Option<Holding>): (r: Snapshot)
    ensures r == Plus(acc, HoldingEffect(h))
  {
    if h.None? then acc
    else Snapshot(AddGain(acc.stcg, TierGain(h.value.stcg)), AddGain(acc.ltcg, TierGain(h.value.ltcg)))
  }

  /** The `forEach` over the selected ids, left to right, from `acc`. The
      running totals always equal `acc` plus the reference effect. */
  function Accumulate(acc: Snapshot, holdings: seq<Holding>, ids: seq<Id>): (r: Snapshot)
    ensures r == Plus(acc, SelectionEffect(holdings, ids))
    decreases |ids|
  {
    if ids == [] then
      PlusZero(acc);
      acc
    else
      var h := Find(holdings, ids[0]);
      PlusAssociative(acc, HoldingEffect(h), SelectionEffect(holdings, ids[1..]));
      Accumulate(AddHolding(acc, h), holdings, ids[1..])
  }

  /** `calculateAfterHarvest(capitalGains, holdings, selectedIds)`. A missing
      gains object yields zeros whatever is selected; otherwise the result is
      the normalised baseline plus the selection's effect, so it never falls
      below the baseline in any bucket, and an empty selection returns
      exactly the normalised baseline. */
  function CalculateAfterHarvest(capitalGains: Option<GainsObject>, holdings: seq<Holding>, selectedIds: seq<Id>): (r: Snapshot)
    ensures capitalGains.None? ==> r == ZeroSnapshot
    ensures capitalGains.Some? ==> r == Plus(Normalize(capitalGains), SelectionEffect(holdings, selectedIds))
    ensures capitalGains.Some? ==> Dominates(r, Normalize(capitalGains))
    ensures selectedIds == [] ==> r == Normalize(capitalGains)
  {
    if capitalGains.None? then ZeroSnapshot
    else Accumulate(Normalize(capitalGains), holdings, selectedIds)
  }

  /** The effect of a concatenated selection is the sum of the effects of its
      parts: no double counting and no cross terms. */
  lemma {:induction false} SelectionEffectAppend(holdings: seq<Holding>, a: seq<Id>, b: seq<Id>)
    ensures SelectionEffect(holdings, a + b) == Plus(SelectionEffect(holdings, a), SelectionEffect(holdings, b))
    decreases |a|
  {
    if a == [] {
      assert a + b == b;
      PlusZero(SelectionEffect(holdings, b));
    } else {
      assert (a + b)[0] == a[0];
      assert (a + b)[1..] == a[1..] + b;
      SelectionEffectAppend(holdings, a[1..], b);
      PlusAssociative(HoldingEffect(Find(holdings, a[0])), SelectionEffect(holdings, a[1..]), SelectionEffect(holdings, b));
    }
  }

  /** With no holdings every id is stale, so any selection has no effect. */
  lemma {:induction false} SelectionOfNothing(ids: seq<Id>)
    ensures SelectionEffect([], ids) == ZeroSnapshot
  {
    if ids != [] {
      SelectionOfNothing(ids[1..]);
      PlusZero(ZeroSnapshot);
    }
  }

  /** Marginal contributions add up: what the selection `a + b` adds to the
      baseline is what `a` adds plus what `b` adds. */
  lemma MarginalContributionsAdd(capitalGains: GainsObject, holdings: seq<Holding>, a: seq<Id>, b: seq<Id>)
    ensures var base := Normalize(Some(capitalGains));
      Minus(CalculateAfterHarvest(Some(capitalGains), holdings, a + b), base) ==
      Plus(Minus(CalculateAfterHarvest(Some(capitalGains), holdings, a), base),
           Minus(CalculateAfterHarvest(Some(capitalGains), holdings, b), base))
  {
    var base := Normalize(Some(capitalGains));
    var ea, eb := SelectionEffect(holdings, a), SelectionEffect(holdings, b);
    SelectionEffectAppend(holdings, a, b);
    MinusPlusCancel(base, Plus(ea, eb));
    MinusPlusCancel(base, ea);
    MinusPlusCancel(base, eb);
  }

  /** The effect of a selection with one id inserted equals the effect
      without it when that id adds nothing. */
  lemma InsertNeutralId(holdings: seq<Holding>, a: seq<Id>, x: Id, b: seq<Id>)
    requires HoldingEffect(Find(holdings, x)) == ZeroSnapshot
    ensures SelectionEffect(holdings, a + [x] + b) == SelectionEffect(holdings, a + b)
  {
    assert SelectionEffect(holdings, [x]) == ZeroSnapshot by {
      assert [x][1..] == [];
      PlusZero(ZeroSnapshot);
    }
    SelectionEffectAppend(holdings, a, [x]);
    PlusZero(SelectionEffect(holdings, a));
    SelectionEffectAppend(holdings, a + [x], b);
    SelectionEffectAppend(holdings, a, b);
  }

  /** A selected id that matches no holding is ignored, wherever it sits in
      the selection. */
  lemma StaleIdIgnored(capitalGains: Option<GainsObject>, holdings: seq<Holding>, a: seq<Id>, x: Id, b: seq<Id>)
    requires forall k :: 0 <= k < |holdings| ==> holdings[k].id != x
    ensures CalculateAfterHarvest(capitalGains, holdings, a + [x] + b) == CalculateAfterHarvest(capitalGains, holdings, a + b)
  {
    InsertNeutralId(holdings, a, x, b);
  }

  /** A holding whose usable tier gains are all zero or missing. */
  predicate Neutral(h: Holding)
  {
    OrZero(TierGain(h.stcg)) == 0.0 && OrZero(TierGain(h.ltcg)) == 0.0
  }

  lemma NeutralHasNoEffect(h: Holding)
    requires Neutral(h)
    ensures HoldingEffect(Some(h)) == ZeroSnapshot
  {
    SignPartition(TierGain(h.stcg));
    SignPartition(TierGain(h.ltcg));
  }

  /** Selecting a holding whose usable gains are all zero or missing changes
      no bucket, wherever its id sits in the selection. */
  lemma NeutralHoldingChangesNothing(capitalGains: Option<GainsObject>, holdings: seq<Holding>, a: seq<Id>, x: Id, b: seq<Id>)
    requires Find(holdings, x).Some? && Neutral(Find(holdings, x).value)
    ensures CalculateAfterHarvest(capitalGains, holdings, a + [x] + b) == CalculateAfterHarvest(capitalGains, holdings, a + b)
  {
    NeutralHasNoEffect(Find(holdings, x).value);
    InsertNeutralId(holdings, a, x, b);
  }

  /** The net of the selection's effect is the selection's signed gain. */
  lemma {:induction false} SelectionEffectNet(holdings: seq<Holding>, ids: seq<Id>)
    ensures SnapshotNet(SelectionEffect(holdings, ids)) == SelectedGain(holdings, ids)
    decreases |ids|
  {
    if ids != [] {
      SelectionEffectNet(holdings, ids[1..]);
      var h := Find(holdings, ids[0]);
      if h.Some? {
        SignPartition(TierGain(h.value.stcg));
        SignPartition(TierGain(h.value.ltcg));
      }
    }
  }

  /** The realised gain after harvesting is the baseline's realised gain plus
      the signed gains of the selected holdings. */
  lemma AfterHarvestNet(capitalGains: GainsObject, holdings: seq<Holding>, ids: seq<Id>)
    ensures SnapshotNet(CalculateAfterHarvest(Some(capitalGains), holdings, ids)) ==
      SnapshotNet(Normalize(Some(capitalGains))) + SelectedGain(holdings, ids)
  {
    SelectionEffectNet(holdings, ids);
  }

  /** A one-id selection contributes exactly that id's holding. */
  lemma SelectionOfOne(H: seq<Holding>, x: Id)
    ensures SelectionEffect(H, [x]) == HoldingEffect(Find(H, x))
  {
    assert [x][1..] == [];
    PlusZero(HoldingEffect(Find(H, x)));
  }

  /** A two-id selection contributes the two holdings' effects. */
  lemma SelectionOfTwo(H: seq<Holding>, a: Id, b: Id)
    ensures SelectionEffect(H, [a, b]) == Plus(HoldingEffect(Find(H, a)), HoldingEffect(Find(H, b)))
  {
    assert [a, b] == [a] + [b];
    SelectionEffectAppend(H, [a], [b]);
    SelectionOfOne(H, a);
    SelectionOfOne(H, b);
  }
}

=== FILE: app_cards.dfy ===
/** The page's two summary cards: the money formatter, the choice between
    the baseline and the after-harvest snapshot, the realised totals and the
    "you are going to save" banner. Every value the cards show is read
    straight from the store objects, so a missing field is JavaScript's
    `undefined` and arithmetic on it gives `NaN`. */
module AppCards {
  import opened Wrappers
  import opened Gains
  import opened AfterHarvest
  import opened HarvestSlice

  /** A JavaScript value in a money field: absent, not a number, or a
      finite number. */
  datatype JsNum = Undefined | NaN | Fin(v: real)

  /** Reading an object field: a missing field is `undefined`. */
  function ReadField(o: Option<real>): JsNum
  {
    if o.Some? then Fin(o.value) else Undefined
  }

  /** Binary `-`: `undefined` converts to `NaN`, and `NaN` absorbs. */
  function JsSub(a: JsNum, b: JsNum): (r: JsNum)
    ensures r.Fin? <==> a.Fin? && b.Fin?
    ensures r.Fin? ==> r.v + b.v == a.v
  {
    if a.Fin? && b.Fin? then Fin(a.v - b.v) else NaN
  }

  /** Binary `+` on numbers (no string operand can occur here). */
  function JsAdd(a: JsNum, b: JsNum): (r: JsNum)
    ensures r.Fin? <==> a.Fin? && b.Fin?
    ensures r.Fin? ==> r.v - b.v == a.v
  {
    if a.Fin? && b.Fin? then Fin(a.v + b.v) else NaN
  }

  /** `<`: false whenever either side is not a number. */
  predicate JsLess(a: JsNum, b: JsNum)
  {
    a.Fin? && b.Fin? && a.v < b.v
  }

  /** `format(val, forceSign)`. A non-number prints `$ 0`; `NaN` is a number
      to `typeof` and prints `$ NaN`; otherwise a leading `- ` marks a
      negative value and the magnitude is printed by `show`, which stands for
      `toLocaleString`. */
  function Format(val: JsNum, forceSign: bool, show: real -> string): (r: string)
    ensures |r| >= 2
    ensures r[0] == '-' <==> val.Fin? && val.v < 0.0
    ensures val.Fin? ==> r == (if val.v < 0.0 then "- $ " else "$ ") + show(Abs(val.v))
    ensures !val.Fin? ==> r == if val.Undefined? then "$ 0" else "$ NaN"
  {
    match val
    case Undefined => "$ 0"
    case NaN => "$ NaN"
    case Fin(v) =>
      if v < 0.0 || forceSign then
        (if v < 0.0 then "- $ " else "$ ") + show(Abs(v))
      else
        "$ " + show(v)
  }

  /** `forceSign` never changes the text: for a non-negative value the
      magnitude is the value itself. */
  lemma ForceSignIrrelevant(val: JsNum, show: real -> string)
    ensures Format(val, true, show) == Format(val, false, show)
  {
  }

  /** Negating a positive amount only adds the leading `- `. */
  lemma FormatNegation(v: real, forceSign: bool, show: real -> string)
    requires v > 0.0
    ensures Format(Fin(-v), forceSign, show) == "- " + Format(Fin(v), forceSign, show)
  {
    assert Abs(-v) == v;
    assert "- $ " + show(v) == "- " + ("$ " + show(v));
  }

  function Profits(t: TierObject): JsNum
  {
    ReadField(t.profits)
  }

  function Losses(t: TierObject): JsNum
  {
    ReadField(t.losses)
  }

  /** A tier's net, `profits - losses`. */
  function TierNet(t: TierObject): JsNum
  {
    JsSub(Profits(t), Losses(t))
  }

  /** `preRealised` / `postRealised`: the two tier nets added. It is a
      number exactly when both tiers carry `profits` and `losses`, and then
      it is the net of the normalised snapshot. */
  function Realised(g: GainsObject): (r: JsNum)
    requires HasTiers(g)
    ensures r.Fin? <==> Canonical(g)
    ensures Canonical(g) ==> r == Fin(SnapshotNet(Normalize(Some(g))))
  {
    JsAdd(TierNet(g.stcg.value), TierNet(g.ltcg.value))
  }

  /** The card's "Realised"/"Effective" total, evaluated left to right as
      `p - l + p2 - l2`. Over exact arithmetic it is the realised value the
      banner compares. */
  function CardGain(g: GainsObject): (r: JsNum)
    requires HasTiers(g)
    ensures r == Realised(g)
  {
    var s, l := g.stcg.value, g.ltcg.value;
    JsSub(JsAdd(TierNet(s), Profits(l)), Losses(l))
  }

  /** A canonical object has both tiers, so its realised value is defined. */
  lemma RealisedOfCanonical(g: GainsObject)
    requires Canonical(g)
    ensures HasTiers(g)
    ensures Realised(g) == Fin(SnapshotNet(Normalize(Some(g))))
  {
  }

  /** `hasSelection`. */
  predicate HasSelection(s: State)
  {
    s.selectedHoldings != []
  }

  /** `postData`: the after-harvest snapshot while something is selected,
      the baseline otherwise. */
  function PostData(s: State): (g: GainsObject)
    requires Renderable(s)
    ensures HasTiers(g)
    ensures HasSelection(s) ==> g == s.afterHarvestGains.value
    ensures !HasSelection(s) ==> g == s.capitalGains
  {
    if HasSelection(s) then s.afterHarvestGains.value else s.capitalGains
  }

  /** `preRealised`: a number exactly when the baseline is canonical. */
  function PreRealised(s: State): (r: JsNum)
    requires Renderable(s)
    ensures r.Fin? <==> Canonical(s.capitalGains)
    ensures Loaded(s) ==> r == Fin(SnapshotNet(Normalize(Some(s.capitalGains))))
  {
    Realised(s.capitalGains)
  }

  /** `postRealised`: the pre-harvest value when nothing is selected,
      otherwise the realised value of the after-harvest snapshot. */
  function PostRealised(s: State): (r: JsNum)
    requires Renderable(s)
    ensures !HasSelection(s) ==> r == PreRealised(s)
    ensures HasSelection(s) ==> r == Realised(s.afterHarvestGains.value)
  {
    Realised(PostData(s))
  }

  /** `showSaving`: something is selected and the realised gain drops. A
      `NaN` on either side never shows the banner. */
  predicate ShowSaving(s: State)
    requires Renderable(s)
    ensures ShowSaving(s) ==> HasSelection(s) && PreRealised(s).Fin? && PostRealised(s).Fin?
    ensures ShowSaving(s) ==> Canonical(s.capitalGains) && Canonical(s.afterHarvestGains.value)
  {
    HasSelection(s) && JsLess(PostRealised(s), PreRealised(s))
  }

  /** The text of one card. */
  datatype Card = Card(
    profitsShort: string, profitsLong: string,
    lossesShort: string, lossesLong: string,
    netShort: string, netLong: string,
    gain: string)

  /** What the two cards render. */
  datatype Cards = Cards(pre: Card, post: Card, showSaving: bool, saving: Option<string>)

  /** One card: profits unsigned, losses with `forceSign`, nets and the
      total signed. */
  function RenderCard(g: GainsObject, show: real -> string): (c: Card)
    requires HasTiers(g)
    ensures c.gain == Format(Realised(g), false, show)
  {
    var s, l := g.stcg.value, g.ltcg.value;
    Card(
      Format(Profits(s), false, show), Format(Profits(l), false, show),
      Format(Losses(s), true, show), Format(Losses(l), true, show),
      Format(TierNet(s), false, show), Format(TierNet(l), false, show),
      Format(CardGain(g), false, show))
  }

  /** Both cards and the banner; the saving text is passed only when the
      banner is shown. */
  function RenderCards(s: State, show: real -> string): (r: Cards)
    requires Renderable(s)
    ensures r.showSaving == ShowSaving(s)
    ensures r.saving.Some? <==> r.showSaving
    ensures r.saving.Some? ==> |r.saving.value| >= 2 && r.saving.value[0] != '-'
    ensures !HasSelection(s) ==> r.post == r.pre && !r.showSaving
  {
    var show' := ShowSaving(s);
    Cards(
      RenderCard(s.capitalGains, show),
      RenderCard(PostData(s), show),
      show',
      if show' then Some(Format(JsSub(PreRealised(s), PostRealised(s)), false, show)) else None)
  }

  /** The banner's amount is the drop in realised gain, a positive number,
      printed without a sign. */
  lemma SavingIsTheDrop(s: State, show: real -> string)
    requires Renderable(s) && ShowSaving(s)
    ensures PreRealised(s).Fin? && PostRealised(s).Fin?
    ensures RenderCards(s, show).saving ==
      Some("$ " + show(PreRealised(s).v - PostRealised(s).v))
    ensures PreRealised(s).v - PostRealised(s).v > 0.0
  {
  }

  /** On a loaded, consistent store with a selection, the effective total is
      the baseline's realised gain plus the selected holdings' signed
      gains, so the banner appears exactly when the selection's gains sum
      to a loss, and it shows that loss. */
  lemma BannerIffSelectionLoses(s: State)
    requires Loaded(s) && Consistent(s) && Renderable(s) && HasSelection(s)
    ensures PostRealised(s) ==
      Fin(SnapshotNet(Normalize(Some(s.capitalGains))) + SelectedGain(s.holdings, s.selectedHoldings))
    ensures ShowSaving(s) <==> SelectedGain(s.holdings, s.selectedHoldings) < 0.0
    ensures ShowSaving(s) ==>
      PreRealised(s).v - PostRealised(s).v == -SelectedGain(s.holdings, s.selectedHoldings)
  {
    var after := s.afterHarvestGains.value;
    RealisedOfCanonical(s.capitalGains);
    RealisedOfCanonical(after);
    AfterHarvestNet(s.capitalGains, s.holdings, s.selectedHoldings);
  }

  /** Before the first load the baseline is in the legacy shape, whose
      `profits` and `losses` are missing: the profit rows print `$ 0` while
      the nets and the total print `$ NaN`, and no banner is shown. */
  lemma InitialCardsShowNaN(show: real -> string)
    ensures Renderable(InitialState())
    ensures RenderCards(InitialState(), show).pre.profitsShort == "$ 0"
    ensures RenderCards(InitialState(), show).pre.gain == "$ NaN"
    ensures RenderCards(InitialState(), show).post == RenderCards(InitialState(), show).pre
    ensures RenderCards(InitialState(), show).saving.None?
  {
  }
}

=== FILE: gains.dfy ===
/** Capital-gains objects in the two field-naming conventions, their
    normalisation into canonical buckets, and the sign partition that turns
    one signed gain into a profit or a loss. */
module Gains {
  import opened Wrappers

  /** One tax tier of a capital-gains object as it is received or stored.
      Two conventions coexist: `profits`/`losses` and the legacy
      `short`/`shortLoss`. `None` is a field that is null or undefined. */
  datatype TierObject = TierObject(
    profits: Option<real>,
    losses: Option<real>,
    short: Option<real>,
    shortLoss: Option<real>)

  /** A capital-gains object: a short-term (`stcg`) and a long-term (`ltcg`)
      tier, either of which may be absent. */
  datatype GainsObject = GainsObject(stcg: Option<TierObject>, ltcg: Option<TierObject>)

  /** Totals of one tier: `profits` sums positive realised gains, `losses`
      sums the magnitudes of negative ones. */
  datatype Bucket = Bucket(profits: real, losses: real)

  /** Canonical short-term and long-term buckets. */
  datatype Snapshot = Snapshot(stcg: Bucket, ltcg: Bucket)

  const ZeroBucket := Bucket(0.0, 0.0)
  const ZeroSnapshot := Snapshot(ZeroBucket, ZeroBucket)

  function Net(b: Bucket): real
  {
    b.profits - b.losses
  }

  /** Realised gain of a snapshot: the net of both tiers. */
  function SnapshotNet(s: Snapshot): real
  {
    Net(s.stcg) + Net(s.ltcg)
  }

  predicate NonNegative(s: Snapshot)
  {
    s.stcg.profits >= 0.0 && s.stcg.losses >= 0.0 &&
    s.ltcg.profits >= 0.0 && s.ltcg.losses >= 0.0
  }

  /** Every bucket of `s` is at least the corresponding bucket of `base`. */
  predicate Dominates(s: Snapshot, base: Snapshot)
  {
    s.stcg.profits >= base.stcg.profits && s.stcg.losses >= base.stcg.losses &&
    s.ltcg.profits >= base.ltcg.profits && s.ltcg.losses >= base.ltcg.losses
  }

  function BucketPlus(a: Bucket, b: Bucket): Bucket
  {
    Bucket(a.profits + b.profits, a.losses + b.losses)
  }

  function Plus(a: Snapshot, b: Snapshot): Snapshot
  {
    Snapshot(BucketPlus(a.stcg, b.stcg), BucketPlus(a.ltcg, b.ltcg))
  }

  lemma PlusAssociative(a: Snapshot, b: Snapshot, c: Snapshot)
    ensures Plus(Plus(a, b), c) == Plus(a, Plus(b, c))
  {
  }

  lemma PlusZero(a: Snapshot)
    ensures Plus(ZeroSnapshot, a) == a && Plus(a, ZeroSnapshot) == a
  {
  }

  lemma MinusPlusCancel(base: Snapshot, x: Snapshot)
    ensures Minus(Plus(base, x), base) == x
  {
  }

  function BucketMinus(a: Bucket, b: Bucket): Bucket
  {
    Bucket(a.profits - b.profits, a.losses - b.losses)
  }

  function Minus(a: Snapshot, b: Snapshot): Snapshot
  {
    Snapshot(BucketMinus(a.stcg, b.stcg), BucketMinus(a.ltcg, b.ltcg))
  }

  /** JavaScript's `a ?? b` on optional numbers. */
  function Coalesce(a: Option<real>, b: Option<real>): Option<real>
  {
    if a.Some? then a else b
  }

  function OrZero(a: Option<real>): real
  {
    if a.Some? then a.value else 0.0
  }

  /** One tier of `normalizeGains`: `profits ?? short ?? 0` and
      `losses ?? shortLoss ?? 0`, with an absent tier giving zeros. */
  function NormalizeTier(t: Option<TierObject>): (b: Bucket)
    ensures t.None? ==> b == ZeroBucket
    ensures t.Some? && t.value.profits.Some? ==> b.profits == t.value.profits.value
    ensures t.Some? && t.value.profits.None? && t.value.short.Some? ==> b.profits == t.value.short.value
    ensures t.Some? && t.value.profits.None? && t.value.short.None? ==> b.profits == 0.0
    ensures t.Some? && t.value.losses.Some? ==> b.losses == t.value.losses.value
    ensures t.Some? && t.value.losses.None? && t.value.shortLoss.Some? ==> b.losses == t.value.shortLoss.value
    ensures t.Some? && t.value.losses.None? && t.value.shortLoss.None? ==> b.losses == 0.0
  {
    match t
    case None => ZeroBucket
    case Some(o) => Bucket(OrZero(Coalesce(o.profits, o.short)), OrZero(Coalesce(o.losses, o.shortLoss)))
  }

  /** `normalizeGains`: both tiers follow the same rule; an absent object
      normalises to zeros. */
  function Normalize(g: Option<GainsObject>): (s: Snapshot)
    ensures g.None? ==> s == ZeroSnapshot
    ensures g.Some? ==> s.stcg == NormalizeTier(g.value.stcg) && s.ltcg == NormalizeTier(g.value.ltcg)
  {
    match g
    case None => ZeroSnapshot
    case Some(o) => Snapshot(NormalizeTier(o.stcg), NormalizeTier(o.ltcg))
  }

  /** Both tiers present, each carrying `profits` and `losses`. */
  predicate Canonical(g: GainsObject)
  {
    g.stcg.Some? && g.ltcg.Some? &&
    g.stcg.value.profits.Some? && g.stcg.value.losses.Some? &&
    g.ltcg.value.profits.Some? && g.ltcg.value.losses.Some?
  }

  /** The object `{stcg: {profits, losses}, ltcg: {profits, losses}}` that
      the original builds from a snapshot; normalising it gives the snapshot
      back. */
  function AsObject(s: Snapshot): (g: GainsObject)
    ensures Canonical(g)
    ensures Normalize(Some(g)) == s
    ensures g.stcg.value.profits == Some(s.stcg.profits) && g.stcg.value.losses == Some(s.stcg.losses)
    ensures g.ltcg.value.profits == Some(s.ltcg.profits) && g.ltcg.value.losses == Some(s.ltcg.losses)
  {
    GainsObject(
      Some(TierObject(Some(s.stcg.profits), Some(s.stcg.losses), None, None)),
      Some(TierObject(Some(s.ltcg.profits), Some(s.ltcg.losses), None, None)))
  }

  /** The same snapshot written in the legacy `short`/`shortLoss` shape;
      normalising it gives the snapshot back as well. */
  function LegacyObject(s: Snapshot): (g: GainsObject)
    ensures Normalize(Some(g)) == s
    ensures !Canonical(g)
  {
    GainsObject(
      Some(TierObject(None, None, Some(s.stcg.profits), Some(s.stcg.losses))),
      Some(TierObject(None, None, Some(s.ltcg.profits), Some(s.ltcg.losses))))
  }

  /** Normalisation is idempotent: the canonical object of a normalised
      object normalises to the same snapshot. */
  lemma NormalizeIdempotent(g: Option<GainsObject>)
    ensures Normalize(Some(AsObject(Normalize(g)))) == Normalize(g)
  {
  }

  /** When a tier carries both conventions, `profits`/`losses` win. */
  lemma NewConventionWins(p: real, l: real, sh: real, sl: real)
    ensures NormalizeTier(Some(TierObject(Some(p), Some(l), Some(sh), Some(sl)))) == Bucket(p, l)
  {
  }

  /** The profit part of a signed gain: positive gains only. */
  function Positive(g: Option<real>): real
  {
    if g.Some? && g.value > 0.0 then g.value else 0.0
  }

  /** The loss part of a signed gain: the magnitude of negative gains only. */
  function Negative(g: Option<real>): real
  {
    if g.Some? && g.value < 0.0 then -g.value else 0.0
  }

  /** The bucket one signed gain contributes. */
  function GainBucket(g: Option<real>): Bucket
  {
    Bucket(Positive(g), Negative(g))
  }

  /** The sign partition: the profit and loss parts of a gain are never
      negative, at most one is non-zero, their net is the gain itself, and a
      zero or unusable gain contributes nothing. */
  lemma SignPartition(g: Option<real>)
    ensures GainBucket(g).profits >= 0.0 && GainBucket(g).losses >= 0.0
    ensures GainBucket(g).profits == 0.0 || GainBucket(g).losses == 0.0
    ensures Net(GainBucket(g)) == OrZero(g)
    ensures OrZero(g) == 0.0 <==> GainBucket(g) == Bucket(0.0, 0.0)
  {
    if g.Some? {
      var v := g.value;
      if v > 0.0 {
        assert GainBucket(g) == Bucket(v, 0.0);
      } else if v < 0.0 {
        assert GainBucket(g) == Bucket(0.0, -v);
      } else {
        assert GainBucket(g) == Bucket(0.0, 0.0);
      }
    }
  }

  /** Adds one signed gain to a bucket, the branch structure of the
      aggregator: a positive gain goes to `profits`, a negative gain adds its
      magnitude to `losses`, a zero or unusable gain changes nothing. */
  function AddGain(b: Bucket, g: Option<real>): (r: Bucket)
    ensures g.Some? && g.value > 0.0 ==> r == Bucket(b.profits + g.value, b.losses)
    ensures g.Some? && g.value < 0.0 ==> r == Bucket(b.profits, b.losses + (-g.value))
    ensures g.None? || g.value == 0.0 ==> r == b
    ensures r == BucketPlus(b, GainBucket(g))
  {
    if g.Some? && g.value > 0.0 then Bucket(b.profits + g.value, b.losses)
    else if g.Some? && g.value < 0.0 then Bucket(b.profits, b.losses + Abs(g.value))
    else b
  }

  function Abs(x: real): (r: real)
    ensures r >= 0.0 && (r == x || r == -x)
  {
    if x < 0.0 then -x else x
  }
}

=== FILE: harvest_slice.dfy ===
/** The `harvest` store: its state record, the five reducers as pure state
    transitions, and the invariant that the after-harvest snapshot is the
    aggregate of the current baseline, holdings and selection. */
module HarvestSlice {
  import opened Wrappers
  import opened Gains
  import opened Holdings
  import opened AfterHarvest

  /** `capitalGains` is kept in the shape it was stored in: the initial state
      uses the legacy `short`/`shortLoss` fields and `clearSelectedHoldings`
      copies it verbatim. `afterHarvestGains` is undefined until a reducer
      first sets it. */
  datatype State = State(
    holdings: seq<Holding>,
    selectedHoldings: seq<Id>,
    capitalGains: GainsObject,
    afterHarvestGains: Option<GainsObject>)

  const LegacyZeroTier := TierObject(None, None, Some(0.0), Some(0.0))

  /** The initial state: no holdings, no selection, legacy-shaped zero gains,
      no after-harvest snapshot. It can be rendered but is not yet in the
      `profits`/`losses` shape, and its baseline normalises to zeros. */
  function InitialState(): (s: State)
    ensures s.holdings == [] && s.selectedHoldings == [] && s.afterHarvestGains.None?
    ensures Renderable(s) && !Loaded(s)
    ensures Normalize(Some(s.capitalGains)) == ZeroSnapshot
  {
    State([], [], GainsObject(Some(LegacyZeroTier), Some(LegacyZeroTier)), None)
  }

  /** The derived snapshot agrees, after normalisation, with the aggregate
      of the current inputs: every bucket the page reads through
      `normalizeGains` is the aggregate's. The stored object may still be in
      the legacy shape (see `ClearOnLegacyBaselineNotExact`). */
  predicate Consistent(s: State)
  {
    s.afterHarvestGains.Some? &&
    Normalize(s.afterHarvestGains) == CalculateAfterHarvest(Some(s.capitalGains), s.holdings, s.selectedHoldings)
  }

  /** The stored snapshot is exactly the `{profits, losses}` object that
      `calculateAfterHarvest` returns for the current inputs. */
  predicate ExactlyConsistent(s: State)
  {
    s.afterHarvestGains == Some(AsObject(CalculateAfterHarvest(Some(s.capitalGains), s.holdings, s.selectedHoldings)))
  }

  /** Every stored gains object has the `profits`/`losses` shape; true from
      the first `setCapitalGains` on. */
  predicate Loaded(s: State)
  {
    Canonical(s.capitalGains) &&
    (s.afterHarvestGains.Some? ==> Canonical(s.afterHarvestGains.value))
  }

  predicate HasTiers(g: GainsObject)
  {
    g.stcg.Some? && g.ltcg.Some?
  }

  /** What the page reads without failing: the baseline has both tiers and,
      whenever something is selected, so does the after-harvest snapshot. */
  predicate Renderable(s: State)
  {
    HasTiers(s.capitalGains) &&
    (s.selectedHoldings != [] ==> s.afterHarvestGains.Some? && HasTiers(s.afterHarvestGains.value))
  }

  /** `setCapitalGains`: normalise the payload and store it as both the
      baseline and the after-harvest snapshot. The selection is NOT
      re-applied: the result is consistent whenever nothing is selected,
      and a selection with any effect is left stale. */
  function SetCapitalGains(s: State, payload: Option<GainsObject>): (r: State)
    ensures Canonical(r.capitalGains) && r.afterHarvestGains == Some(r.capitalGains)
    ensures Normalize(Some(r.capitalGains)) == Normalize(payload)
    ensures r.holdings == s.holdings && r.selectedHoldings == s.selectedHoldings
    ensures s.selectedHoldings == [] ==> Consistent(r)
    ensures Loaded(r) && Renderable(r)
  {
    var g := AsObject(Normalize(payload));
    s.(capitalGains := g, afterHarvestGains := Some(g))
  }

  /** The id `setHoldings` gives the holding at `idx`: `h.id || h.coin ||
      "holding-" + idx`. It is never empty. */
  function StoreId(h: Holding, idx: nat): (id: Id)
    ensures id != ""
    ensures h.id != "" ==> id == h.id
    ensures h.id == "" && h.coin.Some? && h.coin.value != "" ==> id == h.coin.value
    ensures h.id == "" && (h.coin.None? || h.coin.value == "") ==> id == "holding-" + NatToString(idx)
  {
    if h.id != "" then h.id
    else if h.coin.Some? && h.coin.value != "" then h.coin.value
    else "holding-" + NatToString(idx)
  }

  /** Every holding carries a non-empty id. */
  predicate WellIdentified(holdings: seq<Holding>)
  {
    forall i :: 0 <= i < |holdings| ==> holdings[i].id != ""
  }

  /** `setHoldings`: replace the holdings, each with its id assigned; the
      selection and both gains snapshots are left untouched. */
  function SetHoldings(s: State, payload: seq<Holding>): (r: State)
    ensures |r.holdings| == |payload|
    ensures forall i :: 0 <= i < |payload| ==> r.holdings[i] == payload[i].(id := StoreId(payload[i], i))
    ensures WellIdentified(r.holdings)
    ensures r.selectedHoldings == s.selectedHoldings
    ensures r.capitalGains == s.capitalGains && r.afterHarvestGains == s.afterHarvestGains
    ensures Loaded(s) ==> Loaded(r)
    ensures Renderable(s) ==> Renderable(r)
  {
    s.(holdings := seq(|payload|, i requires 0 <= i < |payload| => payload[i].(id := StoreId(payload[i], i))))
  }

  /** When no holding brings an id or a coin, the positional fallback ids
      are pairwise distinct. */
  lemma FallbackIdsDistinct(s: State, payload: seq<Holding>)
    requires forall i :: 0 <= i < |payload| ==> payload[i].id == "" && (payload[i].coin.None? || payload[i].coin.value == "")
    ensures var r := SetHoldings(s, payload);
      forall i, j :: 0 <= i < j < |payload| ==> r.holdings[i].id != r.holdings[j].id
  {
    var r := SetHoldings(s, payload);
    forall i, j | 0 <= i < j < |payload|
      ensures r.holdings[i].id != r.holdings[j].id
    {
      var p := "holding-";
      if r.holdings[i].id == r.holdings[j].id {
        assert (p + NatToString(i))[|p|..] == NatToString(i);
        assert (p + NatToString(j))[|p|..] == NatToString(j);
        NatToStringInjective(i, j);
      }
    }
  }

  /** All occurrences of `id` removed, other ids in their original order. */
  function Remove(ids: seq<Id>, id: Id): (r: seq<Id>)
    ensures |r| <= |ids|
    decreases |ids|
  {
    if ids == [] then []
    else (if ids[0] == id then [] else [ids[0]]) + Remove(ids[1..], id)
  }

  /** The filter keeps exactly the ids other than `id` and introduces no
      duplicate. */
  lemma {:induction false} RemoveMembers(ids: seq<Id>, id: Id)
    ensures forall x :: x in Remove(ids, id) <==> x in ids && x != id
    ensures NoDuplicates(ids) ==> NoDuplicates(Remove(ids, id))
    decreases |ids|
  {
    if ids != [] {
      assert ids == [ids[0]] + ids[1..];
      RemoveMembers(ids[1..], id);
      assert NoDuplicates(ids) ==> NoDuplicates(ids[1..]) && ids[0] !in ids[1..];
    }
  }

  predicate NoDuplicates(ids: seq<Id>)
  {
    forall i, j :: 0 <= i < j < |ids| ==> ids[i] != ids[j]
  }

  /** Removal commutes with concatenation, so the survivors keep their
      relative order. */
  lemma {:induction false} RemoveAppend(a: seq<Id>, b: seq<Id>, id: Id)
    ensures Remove(a + b, id) == Remove(a, id) + Remove(b, id)
    decreases |a|
  {
    if a == [] {
      assert a + b == b;
    } else {
      assert (a + b)[0] == a[0];
      assert (a + b)[1..] == a[1..] + b;
      RemoveAppend(a[1..], b, id);
    }
  }

  /** Removing an absent id changes nothing. */
  lemma {:induction false} RemoveAbsent(ids: seq<Id>, id: Id)
    requires id !in ids
    ensures Remove(ids, id) == ids
    decreases |ids|
  {
    if ids != [] {
      RemoveAbsent(ids[1..], id);
      assert ids == [ids[0]] + ids[1..];
    }
  }

  /** The selection update of `toggleHolding`: membership of `id` flips and
      no other id's membership changes; an absent id is appended at the end,
      a present one is filtered out; no duplicate is ever introduced. */
  function ToggleSelection(ids: seq<Id>, id: Id): (r: seq<Id>)
    ensures forall x :: x in r <==> (x in ids) != (x == id)
    ensures id !in ids ==> r == ids + [id]
    ensures id in ids ==> r == Remove(ids, id)
    ensures NoDuplicates(ids) ==> NoDuplicates(r)
  {
    RemoveMembers(ids, id);
    if id in ids then Remove(ids, id) else ids + [id]
  }

  /** Toggling an absent id twice restores the original selection. */
  lemma ToggleTwiceAbsent(ids: seq<Id>, id: Id)
    requires id !in ids
    ensures ToggleSelection(ToggleSelection(ids, id), id) == ids
  {
    RemoveAppend(ids, [id], id);
    RemoveAbsent(ids, id);
    assert Remove([id], id) == [] by {
      assert [id][1..] == [];
    }
  }

  /** Removing an id that occurs once, between two id-free parts, joins the
      parts. */
  lemma RemoveSingle(a: seq<Id>, id: Id, b: seq<Id>)
    requires id !in a && id !in b
    ensures Remove(a + [id] + b, id) == a + b
  {
    RemoveAppend(a + [id], b, id);
    RemoveAppend(a, [id], id);
    RemoveAbsent(a, id);
    RemoveAbsent(b, id);
    assert Remove([id], id) == [] by {
      assert [id][1..] == [];
    }
    assert Remove(a + [id], id) == a + [];
    assert a + [] == a;
  }

  /** Toggling a present id twice does NOT restore the selection: the id
      moves to the end. */
  lemma ToggleTwicePresent(a: seq<Id>, id: Id, b: seq<Id>)
    requires id !in a && id !in b
    ensures ToggleSelection(ToggleSelection(a + [id] + b, id), id) == a + b + [id]
  {
    var ids := a + [id] + b;
    assert id in ids;
    RemoveSingle(a, id, b);
    var once := ToggleSelection(ids, id);
    assert once == a + b;
    assert id !in once;
  }

  /** In general, toggling a present id twice removes all its occurrences
      and appends it once at the end. */
  lemma ToggleTwicePresentGeneral(ids: seq<Id>, id: Id)
    requires id in ids
    ensures ToggleSelection(ToggleSelection(ids, id), id) == Remove(ids, id) + [id]
  {
    RemoveMembers(ids, id);
  }

  /** `toggleHolding`: flip the id's membership and recompute the
      after-harvest snapshot from the current inputs. */
  function ToggleHolding(s: State, id: Id): (r: State)
    ensures r.selectedHoldings == ToggleSelection(s.selectedHoldings, id)
    ensures r.holdings == s.holdings && r.capitalGains == s.capitalGains
  {
    var selected := ToggleSelection(s.selectedHoldings, id);
    s.(selectedHoldings := selected,
       afterHarvestGains := Some(AsObject(CalculateAfterHarvest(Some(s.capitalGains), s.holdings, selected))))
  }

  /** `selectAllHoldings`: select every holding's id in list order and
      recompute the after-harvest snapshot. */
  function SelectAllHoldings(s: State): (r: State)
    ensures |r.selectedHoldings| == |s.holdings|
    ensures forall i :: 0 <= i < |s.holdings| ==> r.selectedHoldings[i] == s.holdings[i].id
    ensures r.holdings == s.holdings && r.capitalGains == s.capitalGains
  {
    var selected := Ids(s.holdings);
    s.(selectedHoldings := selected,
       afterHarvestGains := Some(AsObject(CalculateAfterHarvest(Some(s.capitalGains), s.holdings, selected))))
  }

  /** `clearSelectedHoldings`: empty the selection and copy the baseline
      into the after-harvest snapshot without recomputing; the copy is what
      the aggregate of an empty selection would give. */
  function ClearSelectedHoldings(s: State): (r: State)
    ensures r.selectedHoldings == []
    ensures r.afterHarvestGains == Some(s.capitalGains)
    ensures r.holdings == s.holdings && r.capitalGains == s.capitalGains
  {
    s.(selectedHoldings := [], afterHarvestGains := Some(s.capitalGains))
  }

  /** Each selection reducer leaves the after-harvest snapshot equal, after
      normalisation, to the aggregate of the current inputs, and keeps the
      stored objects in the shape the page can render. The two recomputing
      reducers store exactly the aggregate object. */
  lemma ToggleHoldingKeeps(s: State, id: Id)
    ensures ExactlyConsistent(ToggleHolding(s, id))
    ensures Consistent(ToggleHolding(s, id))
    ensures Loaded(s) ==> Loaded(ToggleHolding(s, id))
    ensures Renderable(s) ==> Renderable(ToggleHolding(s, id))
  {
  }

  lemma SelectAllKeeps(s: State)
    ensures ExactlyConsistent(SelectAllHoldings(s))
    ensures Consistent(SelectAllHoldings(s))
    ensures Loaded(s) ==> Loaded(SelectAllHoldings(s))
    ensures Renderable(s) ==> Renderable(SelectAllHoldings(s))
  {
  }

  /** Clearing copies the baseline verbatim, which normalises to what the
      aggregate of an empty selection gives. When the baseline is the
      `{profits, losses}` object `setCapitalGains` stores, the copy is
      exactly the aggregate object. */
  lemma ClearSelectedKeeps(s: State)
    ensures Consistent(ClearSelectedHoldings(s))
    ensures s.capitalGains == AsObject(Normalize(Some(s.capitalGains))) ==> ExactlyConsistent(ClearSelectedHoldings(s))
    ensures Loaded(s) ==> Loaded(ClearSelectedHoldings(s))
    ensures Renderable(s) ==> Renderable(ClearSelectedHoldings(s))
  {
  }

  /** After gains have been loaded, clearing stores exactly the aggregate
      object of the empty selection. */
  lemma ClearAfterLoadIsExact(s: State, p: Option<GainsObject>)
    ensures ExactlyConsistent(ClearSelectedHoldings(SetCapitalGains(s, p)))
    ensures ClearSelectedHoldings(SetCapitalGains(s, p)).afterHarvestGains ==
      Some(AsObject(CalculateAfterHarvest(Some(AsObject(Normalize(p))), s.holdings, [])))
  {
    ClearSelectedKeeps(SetCapitalGains(s, p));
  }

  /** Before any load, clearing (as the table does on mount) copies the
      legacy-shaped baseline: the copy normalises to the aggregate but is not
      the `{profits, losses}` object `calculateAfterHarvest` returns. */
  lemma ClearOnLegacyBaselineNotExact()
    ensures Consistent(ClearSelectedHoldings(InitialState()))
    ensures !ExactlyConsistent(ClearSelectedHoldings(InitialState()))
  {
    var s0 := InitialState();
    ClearSelectedKeeps(s0);
    var x := CalculateAfterHarvest(Some(s0.capitalGains), s0.holdings, s0.selectedHoldings);
    assert Canonical(AsObject(x));
    assert s0.capitalGains.stcg.value.profits.None?;
    assert ClearSelectedHoldings(s0).afterHarvestGains == Some(s0.capitalGains);
  }

  /** The actions the store accepts. */
  datatype Action =
    | SetCapitalGainsAction(gains: Option<GainsObject>)
    | SetHoldingsAction(payload: seq<Holding>)
    | ToggleHoldingAction(id: Id)
    | SelectAllHoldingsAction
    | ClearSelectedHoldingsAction

  function Reduce(s: State, a: Action): (r: State)
    ensures Renderable(s) ==> Renderable(r)
    ensures Loaded(s) ==> Loaded(r)
    ensures a.ToggleHoldingAction? || a.SelectAllHoldingsAction? || a.ClearSelectedHoldingsAction? ==> Consistent(r)
  {
    match a
    case SetCapitalGainsAction(g) => SetCapitalGains(s, g)
    case SetHoldingsAction(p) => SetHoldings(s, p)
    case ToggleHoldingAction(id) => ToggleHoldingKeeps(s, id); ToggleHolding(s, id)
    case SelectAllHoldingsAction => SelectAllKeeps(s); SelectAllHoldings(s)
    case ClearSelectedHoldingsAction => ClearSelectedKeeps(s); ClearSelectedHoldings(s)
  }

  /** Applies a sequence of actions in order. */
  function Run(s: State, actions: seq<Action>): State
    decreases |actions|
  {
    if actions == [] then s else Run(Reduce(s, actions[0]), actions[1..])
  }

  /** Every state the store can reach from its initial state is renderable,
      and once gains have been set they stay in the canonical shape. */
  lemma {:induction false} RunPreservesInvariants(s: State, actions: seq<Action>)
    requires Renderable(s)
    ensures Renderable(Run(s, actions))
    ensures Loaded(s) ==> Loaded(Run(s, actions))
    decreases |actions|
  {
    if actions != [] {
      RunPreservesInvariants(Reduce(s, actions[0]), actions[1..]);
    }
  }

  /** After any selection change the after-harvest snapshot agrees, after
      normalisation, with the aggregate of the current inputs; only the two
      loaders can leave it stale. */
  lemma SelectionActionsRestoreConsistency(s: State, a: Action)
    requires a.ToggleHoldingAction? || a.SelectAllHoldingsAction? || a.ClearSelectedHoldingsAction?
    ensures Consistent(Reduce(s, a))
  {
  }

  /** `setHoldings` does not clear the selection, so it can leave the
      after-harvest snapshot stale: after toggling on a holding with a loss,
      replacing the holdings by an empty list keeps the selection and the
      old snapshot, which no longer match the aggregate. */
  lemma SetHoldingsCanLeaveStaleSnapshot(s: State, h: Holding)
    requires s.holdings == [h] && s.selectedHoldings == []
    requires TierGain(h.stcg).Some? && TierGain(h.stcg).value < 0.0
    ensures Consistent(ToggleHolding(s, h.id))
    ensures !Consistent(SetHoldings(ToggleHolding(s, h.id), []))
  {
    var t := ToggleHolding(s, h.id);
    ToggleHoldingKeeps(s, h.id);
    assert t.selectedHoldings == [h.id];
    var base := Normalize(Some(t.capitalGains));
    assert Find([h], h.id) == Some(h);
    SelectionOfOne([h], h.id);
    LossMovesSnapshot(base, h);
    NoHoldingsNoEffect(t.capitalGains, t.selectedHoldings);
  }

  /** With no holdings loaded, any selection leaves the baseline as it is. */
  lemma NoHoldingsNoEffect(capitalGains: GainsObject, ids: seq<Id>)
    ensures CalculateAfterHarvest(Some(capitalGains), [], ids) == Normalize(Some(capitalGains))
  {
    SelectionOfNothing(ids);
    PlusZero(Normalize(Some(capitalGains)));
  }

  /** Adding a holding with a short-term loss moves the snapshot. */
  lemma LossMovesSnapshot(base: Snapshot, h: Holding)
    requires TierGain(h.stcg).Some? && TierGain(h.stcg).value < 0.0
    ensures Plus(base, HoldingEffect(Some(h))) != base
  {
    SignPartition(TierGain(h.stcg));
    var e := HoldingEffect(Some(h));
    assert e.stcg.losses > 0.0;
    assert Plus(base, e).stcg.losses > base.stcg.losses;
  }

  /** `selectAllHoldings` with two holdings sharing an id looks the first one
      up twice and never the second: its after-harvest snapshot counts the
      first holding's gain twice. */
  lemma SelectAllWithSharedId(s: State, h1: Holding, h2: Holding)
    requires s.holdings == [h1, h2] && h1.id == h2.id
    ensures Normalize(SelectAllHoldings(s).afterHarvestGains) ==
      Plus(Plus(Normalize(Some(s.capitalGains)), HoldingEffect(Some(h1))), HoldingEffect(Some(h1)))
  {
    var ids := [h1.id, h2.id];
    assert Ids(s.holdings) == ids;
    assert Find([h1, h2], h1.id) == Some(h1);
    assert ids[1..] == [h1.id];
    assert [h1.id][1..] == [];
    var e := HoldingEffect(Some(h1));
    PlusZero(e);
    assert SelectionEffect([h1, h2], []) == ZeroSnapshot;
    assert SelectionEffect([h1, h2], [h1.id]) == Plus(e, ZeroSnapshot);
    assert SelectionEffect([h1, h2], ids) == Plus(e, SelectionEffect([h1, h2], [h1.id]));
    PlusAssociative(Normalize(Some(s.capitalGains)), e, e);
  }
}

=== FILE: holding_sort.dfy ===
/** Sorting and truncation of the holdings table: a single sort key with an
    ascending or descending direction, a stable sort (ties keep their order,
    as section 23.1.3.30 of ECMA-262 requires of `Array.prototype.sort`), the
    direction toggle, and the first-four / show-all cut. */
module HoldingSort {
  import opened Wrappers
  import opened Holdings
  import opened Gains
  import opened HoldingView

  /** The sortable columns: "short-term", "long-term", "holdings",
      "current". */
  datatype SortKey = ShortTerm | LongTerm | HoldingsQty | CurrentPrice

  datatype Direction = Asc | Desc

  /** `sortConfig`; `key` is `None` (null) until a header is clicked. */
  datatype SortConfig = SortConfig(key: Option<SortKey>, direction: Direction)

  /** The configuration before any header is clicked: no key, ascending. */
  function InitialSortConfig(): SortConfig
  {
    SortConfig(None, Asc)
  }

  function Balance(t: Option<Tier>): Option<real>
  {
    if t.Some? then t.value.balance else None
  }

  /** `getSortValue`: the field the key names, 0 when it is missing. */
  function SortValue(h: Holding, key: SortKey): real
  {
    match key
    case ShortTerm => OrZero(Balance(h.stcg))
    case LongTerm => OrZero(Balance(h.ltcg))
    case HoldingsQty => OrZero(h.totalHolding)
    case CurrentPrice => OrZero(h.currentPrice)
  }

  /** The comparator `av === bv ? 0 : av > bv ? dir : -dir` orders rows by
      this rank: the sort value ascending, its negation descending. */
  function Rank(r: Row, key: SortKey, dir: Direction): real
  {
    if dir == Asc then SortValue(r.holding, key) else -SortValue(r.holding, key)
  }

  predicate SortedBy(s: seq<Row>, key: SortKey, dir: Direction)
  {
    forall i, j :: 0 <= i < j < |s| ==> Rank(s[i], key, dir) <= Rank(s[j], key, dir)
  }

  /** The rows of `s` whose rank is `v`, in their order in `s`. */
  function WithRank(s: seq<Row>, key: SortKey, dir: Direction, v: real): seq<Row>
    decreases |s|
  {
    if s == [] then []
    else
      var last := s[|s| - 1];
      WithRank(s[..|s| - 1], key, dir, v) + (if Rank(last, key, dir) == v then [last] else [])
  }

  lemma WithRankSnoc(s: seq<Row>, x: Row, key: SortKey, dir: Direction, v: real)
    ensures WithRank(s + [x], key, dir, v) == WithRank(s, key, dir, v) + (if Rank(x, key, dir) == v then [x] else [])
  {
    assert (s + [x])[..|s + [x]| - 1] == s;
  }

  lemma SortedPrefix(s: seq<Row>, key: SortKey, dir: Direction)
    requires SortedBy(s, key, dir) && s != []
    ensures SortedBy(s[..|s| - 1], key, dir)
  {
  }

  /** Inserts `x` into sorted `s` after every row of rank at most its own;
      the result is sorted and holds the rows of `s` plus `x`. */
  function Insert(s: seq<Row>, x: Row, key: SortKey, dir: Direction): (r: seq<Row>)
    requires SortedBy(s, key, dir)
    ensures SortedBy(r, key, dir)
    ensures multiset(r) == multiset(s) + multiset{x}
    decreases |s|
  {
    if s == [] then [x]
    else
      var prefix, last := s[..|s| - 1], s[|s| - 1];
      assert s == prefix + [last];
      if Rank(last, key, dir) <= Rank(x, key, dir) then s + [x]
      else
        var front := Insert(prefix, x, key, dir);
        InsertBelow(prefix, last, x, front, key, dir);
        front + [last]
  }

  /** The step of `Insert` that puts `last` back behind the insertion into
      the prefix keeps the result sorted. */
  lemma InsertBelow(prefix: seq<Row>, last: Row, x: Row, front: seq<Row>, key: SortKey, dir: Direction)
    requires SortedBy(prefix + [last], key, dir)
    requires Rank(x, key, dir) < Rank(last, key, dir)
    requires SortedBy(front, key, dir)
    requires multiset(front) == multiset(prefix) + multiset{x}
    ensures SortedBy(front + [last], key, dir)
  {
    forall i | 0 <= i < |front|
      ensures Rank(front[i], key, dir) <= Rank(last, key, dir)
    {
      var y := front[i];
      assert y in multiset(front);
      if y != x {
        assert y in multiset(prefix);
        assert y in prefix;
        var k :| 0 <= k < |prefix| && prefix[k] == y;
        assert (prefix + [last])[k] == y;
        assert (prefix + [last])[|prefix|] == last;
      }
    }
  }

  /** Among the rows of `x`'s rank, `Insert` puts `x` last and keeps the
      others in their order. */
  lemma {:induction false} InsertWithRank(s: seq<Row>, x: Row, key: SortKey, dir: Direction, v: real)
    requires SortedBy(s, key, dir)
    ensures WithRank(Insert(s, x, key, dir), key, dir, v) ==
      WithRank(s, key, dir, v) + (if Rank(x, key, dir) == v then [x] else [])
    decreases |s|
  {
    if s == [] {
      WithRankSnoc([], x, key, dir, v);
    } else {
      var prefix, last := s[..|s| - 1], s[|s| - 1];
      assert s == prefix + [last];
      if Rank(last, key, dir) <= Rank(x, key, dir) {
        WithRankSnoc(s, x, key, dir, v);
      } else {
        SortedPrefix(s, key, dir);
        InsertWithRank(prefix, x, key, dir, v);
        InsertUnfoldBelow(prefix, last, x, key, dir);
        WithRankBelowStep(Insert(prefix, x, key, dir), prefix, last, x, key, dir, v);
      }
    }
  }

  /** `Insert` puts a row of lower rank than the last row in front of it. */
  lemma InsertUnfoldBelow(prefix: seq<Row>, last: Row, x: Row, key: SortKey, dir: Direction)
    requires SortedBy(prefix + [last], key, dir) && SortedBy(prefix, key, dir)
    requires Rank(x, key, dir) < Rank(last, key, dir)
    ensures Insert(prefix + [last], x, key, dir) == Insert(prefix, x, key, dir) + [last]
  {
    var s := prefix + [last];
    assert s[..|s| - 1] == prefix;
  }

  /** The rank filter of the inductive step of `InsertWithRank`. */
  lemma WithRankBelowStep(front: seq<Row>, prefix: seq<Row>, last: Row, x: Row, key: SortKey, dir: Direction, v: real)
    requires Rank(x, key, dir) < Rank(last, key, dir)
    requires WithRank(front, key, dir, v) ==
      WithRank(prefix, key, dir, v) + (if Rank(x, key, dir) == v then [x] else [])
    ensures WithRank(front + [last], key, dir, v) ==
      WithRank(prefix + [last], key, dir, v) + (if Rank(x, key, dir) == v then [x] else [])
  {
    WithRankSnoc(front, last, key, dir, v);
    WithRankSnoc(prefix, last, key, dir, v);
    var w := WithRank(prefix, key, dir, v);
    if Rank(x, key, dir) == v {
      assert WithRank(front + [last], key, dir, v) == w + [x];
      assert WithRank(prefix + [last], key, dir, v) == w;
    } else if Rank(last, key, dir) == v {
      assert WithRank(front + [last], key, dir, v) == w + [last];
      assert WithRank(prefix + [last], key, dir, v) == w + [last];
    } else {
      assert WithRank(front + [last], key, dir, v) == w;
      assert WithRank(prefix + [last], key, dir, v) == w;
    }
  }

  /** A stable sort by rank, inserting the rows one at a time in list
      order; the result is a sorted permutation of the input. */
  function StableSort(s: seq<Row>, key: SortKey, dir: Direction): (r: seq<Row>)
    ensures SortedBy(r, key, dir)
    ensures multiset(r) == multiset(s)
    decreases |s|
  {
    if s == [] then []
    else
      var prefix, last := s[..|s| - 1], s[|s| - 1];
      assert s == prefix + [last];
      Insert(StableSort(prefix, key, dir), last, key, dir)
  }

  /** Stability: the rows of any one rank appear in the sorted list in the
      order they had in the input. */
  lemma {:induction false} StableSortWithRank(s: seq<Row>, key: SortKey, dir: Direction, v: real)
    ensures WithRank(StableSort(s, key, dir), key, dir, v) == WithRank(s, key, dir, v)
    decreases |s|
  {
    if s != [] {
      var prefix, last := s[..|s| - 1], s[|s| - 1];
      assert s == prefix + [last];
      StableSortWithRank(prefix, key, dir, v);
      InsertWithRank(StableSort(prefix, key, dir), last, key, dir, v);
      WithRankSnoc(prefix, last, key, dir, v);
    }
  }

  /** `sortedRows`: the rows unchanged while no key is set; otherwise a
      permutation of them that is non-decreasing (asc) or non-increasing
      (desc) by sort value, in which rows of equal sort value keep their
      original relative order. */
  function SortedRows(rows: seq<Row>, cfg: SortConfig): (r: seq<Row>)
    ensures cfg.key.None? ==> r == rows
    ensures multiset(r) == multiset(rows) && |r| == |rows|
    ensures cfg.key.Some? && cfg.direction == Asc ==>
      forall i, j :: 0 <= i < j < |r| ==> SortValue(r[i].holding, cfg.key.value) <= SortValue(r[j].holding, cfg.key.value)
    ensures cfg.key.Some? && cfg.direction == Desc ==>
      forall i, j :: 0 <= i < j < |r| ==> SortValue(r[i].holding, cfg.key.value) >= SortValue(r[j].holding, cfg.key.value)
    ensures cfg.key.Some? ==>
      forall v :: WithRank(r, cfg.key.value, cfg.direction, v) == WithRank(rows, cfg.key.value, cfg.direction, v)
  {
    if cfg.key.None? then rows
    else
      var r := StableSort(rows, cfg.key.value, cfg.direction);
      assert |r| == |multiset(r)| == |multiset(rows)| == |rows|;
      assert forall v :: WithRank(r, cfg.key.value, cfg.direction, v) == WithRank(rows, cfg.key.value, cfg.direction, v) by {
        forall v
          ensures WithRank(r, cfg.key.value, cfg.direction, v) == WithRank(rows, cfg.key.value, cfg.direction, v)
        {
          StableSortWithRank(rows, cfg.key.value, cfg.direction, v);
        }
      }
      r
  }

  /** A row that ranks at or above the last row goes at the end. */
  lemma InsertAtEnd(s: seq<Row>, x: Row, key: SortKey, dir: Direction)
    requires SortedBy(s, key, dir)
    requires s != [] ==> Rank(s[|s| - 1], key, dir) <= Rank(x, key, dir)
    ensures Insert(s, x, key, dir) == s + [x]
  {
  }

  /** A list already in order comes out of the sort unchanged. */
  lemma {:induction false} StableSortOfSorted(s: seq<Row>, key: SortKey, dir: Direction)
    requires SortedBy(s, key, dir)
    ensures StableSort(s, key, dir) == s
    decreases |s|
  {
    if s != [] {
      var prefix, last := s[..|s| - 1], s[|s| - 1];
      assert s == prefix + [last];
      SortedPrefix(s, key, dir);
      StableSortOfSorted(prefix, key, dir);
      assert StableSort(s, key, dir) == Insert(prefix, last, key, dir);
      if prefix != [] {
        assert Rank(s[|prefix| - 1], key, dir) <= Rank(s[|prefix|], key, dir);
      }
      InsertAtEnd(prefix, last, key, dir);
    }
  }

  /** Sorting the sorted rows again under the same configuration changes
      nothing. */
  lemma SortedRowsIdempotent(rows: seq<Row>, cfg: SortConfig)
    ensures SortedRows(SortedRows(rows, cfg), cfg) == SortedRows(rows, cfg)
  {
    if cfg.key.Some? {
      StableSortOfSorted(StableSort(rows, cfg.key.value, cfg.direction), cfg.key.value, cfg.direction);
    }
  }

  /** `toggleSort`: the current key flips its direction, a new key starts
      ascending. */
  function ToggleSort(cfg: SortConfig, key: SortKey): (r: SortConfig)
    ensures r.key == Some(key)
    ensures cfg.key == Some(key) ==> r.direction != cfg.direction
    ensures cfg.key != Some(key) ==> r.direction == Asc
  {
    if cfg.key == Some(key) then SortConfig(Some(key), if cfg.direction == Asc then Desc else Asc)
    else SortConfig(Some(key), Asc)
  }

  /** Clicking the same header twice restores the configuration; clicking a
      new header twice sorts it descending. */
  lemma ToggleSortTwice(cfg: SortConfig, key: SortKey)
    ensures cfg.key == Some(key) ==> ToggleSort(ToggleSort(cfg, key), key) == cfg
    ensures cfg.key != Some(key) ==> ToggleSort(ToggleSort(cfg, key), key) == SortConfig(Some(key), Desc)
  {
  }

  /** Until a header is clicked the rows keep the order they were loaded
      in; the first click on a column sorts it ascending. */
  lemma InitialOrderKept(rows: seq<Row>, key: SortKey)
    ensures SortedRows(rows, InitialSortConfig()) == rows
    ensures ToggleSort(InitialSortConfig(), key) == SortConfig(Some(key), Asc)
  {
  }

  /** The number of rows shown before "View all". */
  const CollapsedRows := 4

  /** `visibleRows`: every sorted row when expanded, otherwise the first
      four (or fewer). The shown rows are always a prefix of the sorted
      rows. */
  function VisibleRows(sorted: seq<Row>, showAll: bool): (r: seq<Row>)
    ensures |r| == if showAll || |sorted| <= CollapsedRows then |sorted| else CollapsedRows
    ensures r == sorted[..|r|]
  {
    if showAll then sorted
    else if |sorted| <= CollapsedRows then sorted
    else sorted[..CollapsedRows]
  }

  /** The "View all / View less" link is rendered when there are more than
      four rows. */
  predicate ShowsViewToggle(rows: seq<Row>)
  {
    |rows| > CollapsedRows
  }

  /** The link is shown exactly when expanding would change what is
      visible. */
  lemma ViewToggleShownIffItMatters(rows: seq<Row>, cfg: SortConfig)
    ensures var sorted := SortedRows(rows, cfg);
      ShowsViewToggle(rows) <==> VisibleRows(sorted, true) != VisibleRows(sorted, false)
  {
    var sorted := SortedRows(rows, cfg);
    if ShowsViewToggle(rows) {
      assert |VisibleRows(sorted, true)| != |VisibleRows(sorted, false)|;
    }
  }
}

=== FILE: holding_view.dfy ===
/** The holdings table's selection mirror: rows carrying a `selected` flag,
    the reset effect that runs when the holdings change, the tri-state
    header checkbox, and the header and row checkbox handlers. Each handler
    is a pure transition of the rows together with the store. */
module HoldingView {
  import opened Wrappers
  import opened Holdings
  import opened HarvestSlice

  datatype Row = Row(holding: Holding, selected: bool)

  /** The rows on screen together with the store they dispatch to. */
  datatype Screen = Screen(rows: seq<Row>, store: State)

  /** A missing coin renders as "undefined" inside a template string. */
  function CoinText(coin: Option<string>): string
  {
    if coin.Some? then coin.value else "undefined"
  }

  /** `ensureId`: keep a non-empty id, otherwise use `<coin>-<idx>`; every
      other field is unchanged. */
  function EnsureId(h: Holding, idx: nat): (r: Holding)
    ensures r.id != ""
    ensures h.id != "" ==> r == h
    ensures h.id == "" ==> r.id == CoinText(h.coin) + "-" + NatToString(idx)
    ensures r == h.(id := r.id)
  {
    if h.id != "" then h else h.(id := CoinText(h.coin) + "-" + NatToString(idx))
  }

  /** The rows built from a holdings list: fallback ids, nothing selected. */
  function InitRows(holdings: seq<Holding>): (rows: seq<Row>)
    ensures |rows| == |holdings|
    ensures forall i :: 0 <= i < |holdings| ==> rows[i] == Row(EnsureId(holdings[i], i), false)
  {
    seq(|holdings|, i requires 0 <= i < |holdings| => Row(EnsureId(holdings[i], i), false))
  }

  /** One row per stored holding, with the same id. */
  predicate SameIds(sc: Screen)
  {
    |sc.rows| == |sc.store.holdings| &&
    forall i :: 0 <= i < |sc.rows| ==> sc.rows[i].holding.id == sc.store.holdings[i].id
  }

  /** The rows mirror the store: one row per stored holding with the same
      id, and a row is ticked exactly when its id is selected. */
  predicate InSync(sc: Screen)
  {
    SameIds(sc) &&
    (forall i :: 0 <= i < |sc.rows| ==> (sc.rows[i].selected <==> sc.rows[i].holding.id in sc.store.selectedHoldings))
  }

  /** The effect that runs whenever the holdings change: rebuild the rows
      from the store's holdings with nothing ticked and dispatch
      `clearSelectedHoldings`. Afterwards nothing is selected, the store is
      consistent again, and — for holdings that came through `setHoldings` —
      the rows mirror the store. */
  function OnHoldingsChanged(store: State): (r: Screen)
    ensures |r.rows| == |store.holdings|
    ensures forall i :: 0 <= i < |r.rows| ==> !r.rows[i].selected
    ensures r.store.selectedHoldings == [] && r.store.holdings == store.holdings
    ensures Consistent(r.store)
    ensures WellIdentified(store.holdings) ==> InSync(r)
  {
    ClearSelectedKeeps(store);
    Screen(InitRows(store.holdings), ClearSelectedHoldings(store))
  }

  /** Loading new holdings and letting the reset effect run leaves the store
      consistent with an empty selection, whatever was selected before. */
  lemma ReloadClearsSelection(store: State, payload: seq<Holding>)
    ensures var r := OnHoldingsChanged(SetHoldings(store, payload));
      r.store.selectedHoldings == [] && Consistent(r.store) && InSync(r)
  {
  }

  /** `allChecked`: at least one row and every row ticked. */
  predicate AllChecked(rows: seq<Row>)
  {
    |rows| > 0 && forall i :: 0 <= i < |rows| ==> rows[i].selected
  }

  /** `someChecked`: some row ticked but not all. */
  predicate SomeChecked(rows: seq<Row>)
  {
    (exists i :: 0 <= i < |rows| && rows[i].selected) && !AllChecked(rows)
  }

  /** The header checkbox is never both checked and indeterminate; it is
      indeterminate exactly when some row is ticked and some is not, and
      checked exactly when rows exist and none is unticked. */
  lemma HeaderCheckboxStates(rows: seq<Row>)
    ensures !(AllChecked(rows) && SomeChecked(rows))
    ensures SomeChecked(rows) <==>
      (exists i :: 0 <= i < |rows| && rows[i].selected) && (exists j :: 0 <= j < |rows| && !rows[j].selected)
    ensures AllChecked(rows) <==> |rows| > 0 && !(exists j :: 0 <= j < |rows| && !rows[j].selected)
  {
  }

  /** Rows that all carry the same flag: the header is checked exactly when
      that flag is set and rows exist, and never indeterminate. */
  lemma UniformHeader(rows: seq<Row>, checked: bool)
    requires forall i :: 0 <= i < |rows| ==> rows[i].selected == checked
    ensures AllChecked(rows) <==> checked && |rows| > 0
    ensures !SomeChecked(rows)
  {
    if |rows| > 0 {
      assert rows[0].selected == checked;
    }
  }

  /** The header checkbox handler: tick or untick every row, then dispatch
      `selectAllHoldings` or `clearSelectedHoldings`. Row order and count are
      kept. */
  function ParentCheckbox(sc: Screen, checked: bool): (r: Screen)
    ensures |r.rows| == |sc.rows|
    ensures forall i :: 0 <= i < |sc.rows| ==> r.rows[i] == Row(sc.rows[i].holding, checked)
    ensures r.store == (if checked then SelectAllHoldings(sc.store) else ClearSelectedHoldings(sc.store))
  {
    Screen(TickAll(sc.rows, checked), HeaderDispatch(sc.store, checked))
  }

  /** Every row's flag set to `checked`. */
  function TickAll(rows: seq<Row>, checked: bool): (r: seq<Row>)
    ensures |r| == |rows|
    ensures forall i :: 0 <= i < |rows| ==> r[i] == Row(rows[i].holding, checked)
  {
    seq(|rows|, i requires 0 <= i < |rows| => Row(rows[i].holding, checked))
  }

  /** The action the header checkbox dispatches. */
  function HeaderDispatch(store: State, checked: bool): (r: State)
    ensures r.holdings == store.holdings && r.capitalGains == store.capitalGains
    ensures checked ==> |r.selectedHoldings| == |store.holdings|
    ensures checked ==> forall i :: 0 <= i < |store.holdings| ==> r.selectedHoldings[i] == store.holdings[i].id
    ensures !checked ==> r.selectedHoldings == []
  {
    if checked then SelectAllHoldings(store) else ClearSelectedHoldings(store)
  }

  /** After a header click the header shows checked exactly when it was
      ticked and there are rows, and it is never indeterminate. */
  lemma HeaderAfterClick(sc: Screen, checked: bool)
    ensures AllChecked(ParentCheckbox(sc, checked).rows) <==> checked && |sc.rows| > 0
    ensures !SomeChecked(ParentCheckbox(sc, checked).rows)
  {
    UniformHeader(ParentCheckbox(sc, checked).rows, checked);
  }

  /** A header click brings rows that match the store's holdings into sync
      with the store, whatever was ticked before, and leaves the store
      consistent. */
  lemma HeaderClickSyncs(sc: Screen, checked: bool)
    requires SameIds(sc)
    ensures InSync(ParentCheckbox(sc, checked))
    ensures Consistent(ParentCheckbox(sc, checked).store)
  {
    HeaderClickInSync(sc, checked);
    HeaderDispatchConsistent(sc.store, checked);
  }

  lemma HeaderClickInSync(sc: Screen, checked: bool)
    requires SameIds(sc)
    ensures InSync(ParentCheckbox(sc, checked))
  {
    if checked {
      TickAllInSync(sc);
    } else {
      UntickAllInSync(sc);
    }
  }

  lemma TickAllInSync(sc: Screen)
    requires SameIds(sc)
    ensures InSync(ParentCheckbox(sc, true))
  {
    var rows, st := TickAll(sc.rows, true), SelectAllHoldings(sc.store);
    UniformSync(rows, st, true);
    assert ParentCheckbox(sc, true) == Screen(rows, st);
  }

  lemma UntickAllInSync(sc: Screen)
    requires SameIds(sc)
    ensures InSync(ParentCheckbox(sc, false))
  {
    var rows, st := TickAll(sc.rows, false), ClearSelectedHoldings(sc.store);
    UniformSync(rows, st, false);
    assert ParentCheckbox(sc, false) == Screen(rows, st);
  }

  /** Rows carrying the store's ids, all with the same flag, against a
      selection that lists every id in order when the flag is set and is
      empty otherwise, are in sync with the store. */
  lemma UniformSync(rows: seq<Row>, st: State, checked: bool)
    requires |rows| == |st.holdings|
    requires forall i :: 0 <= i < |rows| ==> rows[i].holding.id == st.holdings[i].id && rows[i].selected == checked
    requires |st.selectedHoldings| == (if checked then |st.holdings| else 0)
    requires forall i :: 0 <= i < |st.selectedHoldings| ==> st.selectedHoldings[i] == st.holdings[i].id
    ensures InSync(Screen(rows, st))
  {
    if checked {
      forall i | 0 <= i < |rows|
        ensures rows[i].holding.id in st.selectedHoldings
      {
        assert st.selectedHoldings[i] == rows[i].holding.id;
      }
    }
  }

  /** Either action leaves the store consistent. */
  lemma HeaderDispatchConsistent(store: State, checked: bool)
    ensures Consistent(HeaderDispatch(store, checked))
  {
    if checked {
      SelectAllKeeps(store);
    } else {
      ClearSelectedKeeps(store);
    }
  }

  /** The row checkbox handler for `id`: set the flag of the rows carrying
      `id`, leave every other row alone, and dispatch `toggleHolding(id)`. */
  function ChildCheckbox(sc: Screen, id: Id, checked: bool): (r: Screen)
    ensures |r.rows| == |sc.rows|
    ensures forall i :: 0 <= i < |sc.rows| ==>
      r.rows[i].holding == sc.rows[i].holding &&
      r.rows[i].selected == (if sc.rows[i].holding.id == id then checked else sc.rows[i].selected)
    ensures r.store == ToggleHolding(sc.store, id)
  {
    var rows := seq(|sc.rows|, i requires 0 <= i < |sc.rows| =>
      if sc.rows[i].holding.id == id then sc.rows[i].(selected := checked) else sc.rows[i]);
    Screen(rows, ToggleHolding(sc.store, id))
  }

  /** Clicking a row's checkbox sends the negation of what the row shows.
      Starting in sync, the rows and the store stay in sync and the store
      stays consistent. */
  lemma RowClickKeepsSync(sc: Screen, k: int)
    requires InSync(sc)
    requires 0 <= k < |sc.rows|
    ensures var r := ChildCheckbox(sc, sc.rows[k].holding.id, !sc.rows[k].selected);
      InSync(r) && Consistent(r.store)
  {
    var id := sc.rows[k].holding.id;
    var checked := !sc.rows[k].selected;
    var r := ChildCheckbox(sc, id, checked);
    ToggleHoldingKeeps(sc.store, id);
    forall i | 0 <= i < |r.rows|
      ensures r.rows[i].selected <==> r.rows[i].holding.id in r.store.selectedHoldings
    {
      if sc.rows[i].holding.id == id {
        assert sc.rows[i].selected == sc.rows[k].selected;
      }
    }
  }
}

=== FILE: holdings.dfy ===
/** Holdings as the store and the table see them, the first-match lookup the
    aggregator uses, and the decimal rendering of row indices that fallback
    ids are built from. */
module Holdings {
  import opened Wrappers

  /** Holding identifiers are strings; the empty string stands for a missing
      or otherwise falsy `id`. */
  type Id = string

  /** One tax tier of a holding. `gain` is `None` when the field is absent,
      is not a number, or is NaN; `balance` is `None` when it is absent. */
  datatype Tier = Tier(gain: Option<real>, balance: Option<real>)

  /** A holding record. `coin` is `None` when the ticker field is absent. */
  datatype Holding = Holding(
    id: Id,
    coin: Option<string>,
    stcg: Option<Tier>,
    ltcg: Option<Tier>,
    totalHolding: Option<real>,
    currentPrice: Option<real>)

  /** The tier gain the aggregator accepts: the tier exists and its gain is a
      number that is not NaN. */
  function TierGain(t: Option<Tier>): (r: Option<real>)
    ensures r.Some? <==> t.Some? && t.value.gain.Some?
    ensures r.Some? ==> r == t.value.gain
  {
    if t.Some? then t.value.gain else None
  }

  /** The ids of a list of holdings, in list order. */
  function Ids(holdings: seq<Holding>): (ids: seq<Id>)
    ensures |ids| == |holdings|
    ensures forall i :: 0 <= i < |holdings| ==> ids[i] == holdings[i].id
  {
    seq(|holdings|, i requires 0 <= i < |holdings| => holdings[i].id)
  }

  /** `k` is the first position of `holdings` that carries `id`. */
  predicate FirstAt(holdings: seq<Holding>, id: Id, k: int)
  {
    0 <= k < |holdings| && holdings[k].id == id &&
    forall j :: 0 <= j < k ==> holdings[j].id != id
  }

  /** `holdings.find(h => h.id === id)`: the FIRST holding carrying `id`. */
  function Find(holdings: seq<Holding>, id: Id): (r: Option<Holding>)
    ensures r.None? <==> forall k :: 0 <= k < |holdings| ==> holdings[k].id != id
    ensures r.Some? ==> exists k :: FirstAt(holdings, id, k) && holdings[k] == r.value
  {
    if |holdings| == 0 then None
    else if holdings[0].id == id then Some(holdings[0])
    else
      var r := Find(holdings[1..], id);
      assert r.Some? ==> exists k :: FirstAt(holdings, id, k) && holdings[k] == r.value by {
        if r.Some? {
          var k :| FirstAt(holdings[1..], id, k) && holdings[1..][k] == r.value;
          assert FirstAt(holdings, id, k + 1);
        }
      }
      r
  }

  function DigitChar(d: nat): char
    requires d < 10
  {
    "0123456789"[d]
  }

  /** Decimal rendering of a row index, as JavaScript template strings
      render a non-negative integer. */
  function NatToString(n: nat): (s: string)
    ensures 1 <= |s|
    ensures |s| == 1 <==> n < 10
    ensures s[|s| - 1] == DigitChar(n % 10)
  {
    if n < 10 then [DigitChar(n)] else NatToString(n / 10) + [DigitChar(n % 10)]
  }

  lemma DigitCharInjective(x: nat, y: nat)
    requires x < 10 && y < 10
    requires DigitChar(x) == DigitChar(y)
    ensures x == y
  {
  }

  /** Distinct indices render to distinct strings. */
  lemma {:induction false} NatToStringInjective(a: nat, b: nat)
    requires NatToString(a) == NatToString(b)
    ensures a == b
    decreases a
  {
    var sa, sb := NatToString(a), NatToString(b);
    DigitCharInjective(a % 10, b % 10);
    if a >= 10 {
      assert b >= 10;
      assert NatToString(a / 10) == sa[..|sa| - 1];
      assert NatToString(b / 10) == sb[..|sb| - 1];
      NatToStringInjective(a / 10, b / 10);
      assert a == 10 * (a / 10) + a % 10;
      assert b == 10 * (b / 10) + b % 10;
    }
  }
}

=== FILE: post_harvest.dfy ===
/** `calculatePostHarvestGains`: the alternative aggregator. It starts from
    zero buckets, reads no baseline, and lets every selected holding
    contribute nothing ("drop the selected holdings"). */
module PostHarvest {
  import opened Wrappers
  import opened Gains
  import opened Holdings
  import AfterHarvest

  /** The holding shape this aggregator reads: `stcg` and `ltcg` are plain
      numbers. */
  datatype FlatHolding = FlatHolding(id: Id, stcg: real, ltcg: real)

  /** `if (v >= 0) profits += v; else losses += Math.abs(v)`. Because adding
      zero to `profits` changes nothing, this is the same sign partition as
      the other aggregator's strict `> 0` / `< 0` branches. */
  function AddSigned(b: Bucket, v: real): (r: Bucket)
    ensures r == AddGain(b, Some(v))
  {
    if v >= 0.0 then Bucket(b.profits + v, b.losses) else Bucket(b.profits, b.losses + Abs(v))
  }

  /** One iteration of the `forEach`: a selected holding's tier values are
      replaced by 0 before they are added. */
  function Step(acc: Snapshot, h: FlatHolding, selectedIds: seq<Id>): (r: Snapshot)
    ensures h.id in selectedIds ==> r == acc
    ensures h.id !in selectedIds ==> r == Plus(acc, FlatEffect(h))
  {
    var isSelected := h.id in selectedIds;
    var st := if isSelected then 0.0 else h.stcg;
    var lt := if isSelected then 0.0 else h.ltcg;
    Snapshot(AddSigned(acc.stcg, st), AddSigned(acc.ltcg, lt))
  }

  /** `calculatePostHarvestGains(allHoldings, selectedIds)`, folding the
      holdings in list order from zero buckets. Every bucket stays
      non-negative. */
  function CalculatePostHarvestGains(all: seq<FlatHolding>, selectedIds: seq<Id>): (r: Snapshot)
    ensures NonNegative(r)
    decreases |all|
  {
    if all == [] then ZeroSnapshot
    else
      var last := all[|all| - 1];
      Step(CalculatePostHarvestGains(all[..|all| - 1], selectedIds), last, selectedIds)
  }

  /** The sign-partitioned contribution of one holding. */
  function FlatEffect(h: FlatHolding): Snapshot
  {
    Snapshot(GainBucket(Some(h.stcg)), GainBucket(Some(h.ltcg)))
  }

  /** Reference definition: the sign-partitioned sum over a list. */
  function FlatSum(all: seq<FlatHolding>): Snapshot
    decreases |all|
  {
    if all == [] then ZeroSnapshot
    else Plus(FlatSum(all[..|all| - 1]), FlatEffect(all[|all| - 1]))
  }

  /** The holdings whose ids are not selected, in list order. */
  function Unselected(all: seq<FlatHolding>, selectedIds: seq<Id>): (r: seq<FlatHolding>)
    ensures forall h :: h in r <==> h in all && h.id !in selectedIds
    decreases |all|
  {
    if all == [] then []
    else
      var rest := Unselected(all[..|all| - 1], selectedIds);
      var last := all[|all| - 1];
      assert all == all[..|all| - 1] + [last];
      if last.id in selectedIds then rest else rest + [last]
  }

  /** The result is exactly the sign-partitioned sum of the UNSELECTED
      holdings: selecting a holding removes its contribution. */
  lemma {:induction false} PostHarvestSumsUnselected(all: seq<FlatHolding>, selectedIds: seq<Id>)
    ensures CalculatePostHarvestGains(all, selectedIds) == FlatSum(Unselected(all, selectedIds))
    decreases |all|
  {
    if all != [] {
      var prefix, last := all[..|all| - 1], all[|all| - 1];
      PostHarvestSumsUnselected(prefix, selectedIds);
      var rest := Unselected(prefix, selectedIds);
      var acc := CalculatePostHarvestGains(prefix, selectedIds);
      if last.id in selectedIds {
        assert AddSigned(acc.stcg, 0.0) == acc.stcg;
        assert AddSigned(acc.ltcg, 0.0) == acc.ltcg;
      } else {
        assert (rest + [last])[..|rest + [last]| - 1] == rest;
        assert FlatSum(rest + [last]) == Plus(FlatSum(rest), FlatEffect(last));
      }
    }
  }

  /** With nothing selected the result is the sign-partitioned sum over all
      holdings. */
  lemma EmptySelectionSumsAll(all: seq<FlatHolding>)
    ensures CalculatePostHarvestGains(all, []) == FlatSum(all)
  {
    PostHarvestSumsUnselected(all, []);
    UnselectedNothing(all);
  }

  lemma {:induction false} UnselectedNothing(all: seq<FlatHolding>)
    ensures Unselected(all, []) == all
    decreases |all|
  {
    if all != [] {
      UnselectedNothing(all[..|all| - 1]);
      assert all == all[..|all| - 1] + [all[|all| - 1]];
    }
  }

  /** When every holding is selected, none is left unselected. */
  lemma {:induction false} UnselectedEmpty(all: seq<FlatHolding>, selectedIds: seq<Id>)
    requires forall h :: h in all ==> h.id in selectedIds
    ensures Unselected(all, selectedIds) == []
    decreases |all|
  {
    if all != [] {
      var prefix, last := all[..|all| - 1], all[|all| - 1];
      assert forall h :: h in prefix ==> h in all;
      assert last in all;
      UnselectedEmpty(prefix, selectedIds);
    }
  }

  /** Selecting every holding yields all-zero buckets. */
  lemma SelectEverythingGivesZero(all: seq<FlatHolding>, selectedIds: seq<Id>)
    requires forall h :: h in all ==> h.id in selectedIds
    ensures CalculatePostHarvestGains(all, selectedIds) == ZeroSnapshot
  {
    PostHarvestSumsUnselected(all, selectedIds);
    UnselectedEmpty(all, selectedIds);
  }

  /** Only which holdings' ids are selected matters: ids that match no
      holding, repeated ids and the order of the selection have no effect. */
  lemma {:induction false} OnlyMembershipMatters(all: seq<FlatHolding>, s1: seq<Id>, s2: seq<Id>)
    requires forall h :: h in all ==> (h.id in s1 <==> h.id in s2)
    ensures CalculatePostHarvestGains(all, s1) == CalculatePostHarvestGains(all, s2)
    decreases |all|
  {
    if all != [] {
      var prefix := all[..|all| - 1];
      assert forall h :: h in prefix ==> h in all;
      OnlyMembershipMatters(prefix, s1, s2);
    }
  }

  /** The holding record the other aggregator would read for the same data. */
  function AsHolding(f: FlatHolding): Holding
  {
    Holding(f.id, None, Some(Tier(Some(f.stcg), None)), Some(Tier(Some(f.ltcg), None)), None, None)
  }

  /** Where the two aggregators differ. Selecting a holding with a short-term
      loss makes `calculateAfterHarvest` ADD that loss on top of the baseline,
      while `calculatePostHarvestGains` drops the holding and reports no
      short-term loss at all. */
  lemma AggregatorsDisagreeOnSelectedLoss(capitalGains: GainsObject, f: FlatHolding)
    requires f.stcg < 0.0
    ensures AfterHarvest.CalculateAfterHarvest(Some(capitalGains), [AsHolding(f)], [f.id]).stcg.losses ==
      Normalize(Some(capitalGains)).stcg.losses - f.stcg
    ensures CalculatePostHarvestGains([f], [f.id]).stcg.losses == 0.0
  {
    var h := AsHolding(f);
    assert Find([h], f.id) == Some(h);
    AfterHarvest.SelectionOfOne([h], f.id);
    assert GainBucket(Some(f.stcg)) == Bucket(0.0, -f.stcg);
    assert AfterHarvest.HoldingEffect(Some(h)).stcg == Bucket(0.0, -f.stcg);
    assert [f][..0] == [];
    assert f.id in [f.id];
  }

  /** With an empty selection the two differ the other way round:
      `calculateAfterHarvest` returns the baseline and ignores the holdings,
      `calculatePostHarvestGains` ignores any baseline and sums the holdings. */
  lemma AggregatorsDisagreeOnEmptySelection(capitalGains: GainsObject, all: seq<FlatHolding>)
    ensures AfterHarvest.CalculateAfterHarvest(Some(capitalGains), seq(|all|, i requires 0 <= i < |all| => AsHolding(all[i])), []) ==
      Normalize(Some(capitalGains))
    ensures CalculatePostHarvestGains(all, []) == FlatSum(all)
  {
    EmptySelectionSumsAll(all);
  }
}

=== FILE: scenario.dfy ===
/** A worked example: a baseline of 100/20 short-term and 50/10 long-term,
    one holding with a short-term loss of 30 and one with a long-term gain
    of 15, both selected. */
module Scenario {
  import opened Wrappers
  import opened Holdings
  import opened Gains
  import opened AfterHarvest
  import opened HarvestSlice
  import opened AppCards

  function HoldingA(): Holding { Holding("A", Some("A"), Some(Tier(Some(-30.0), None)), None, None, None) }
  function HoldingB(): Holding { Holding("B", Some("B"), None, Some(Tier(Some(15.0), None)), None, None) }

  lemma EffectA()
    ensures HoldingEffect(Some(HoldingA())) == Snapshot(Bucket(0.0, 30.0), ZeroBucket)
  {
    assert TierGain(HoldingA().stcg) == Some(-30.0);
    assert TierGain(HoldingA().ltcg) == None;
  }

  lemma EffectB()
    ensures HoldingEffect(Some(HoldingB())) == Snapshot(ZeroBucket, Bucket(15.0, 0.0))
  {
    assert TierGain(HoldingB().stcg) == None;
    assert TierGain(HoldingB().ltcg) == Some(15.0);
  }

  lemma FindBoth()
    ensures Find([HoldingA(), HoldingB()], "A") == Some(HoldingA())
    ensures Find([HoldingA(), HoldingB()], "B") == Some(HoldingB())
  {
    assert "A" != "B" by { assert "A"[0] != "B"[0]; }
    assert [HoldingA(), HoldingB()][1..] == [HoldingB()];
  }

  /** Selecting both holdings contributes a short-term loss of 30 and a
      long-term profit of 15. */
  lemma SelectionAB(H: seq<Holding>, ids: seq<Id>)
    requires H == [HoldingA(), HoldingB()] && ids == ["A", "B"]
    ensures SelectionEffect(H, ids) == Snapshot(Bucket(0.0, 30.0), Bucket(15.0, 0.0))
  {
    FindBoth();
    EffectA();
    EffectB();
    SelectionOfTwo(H, "A", "B");
  }

  /** Selecting both holdings adds the loss to the short-term losses and the
      gain to the long-term profits. */
  lemma ProjectedAB(base: GainsObject, H: seq<Holding>, ids: seq<Id>)
    requires base == AsObject(Snapshot(Bucket(100.0, 20.0), Bucket(50.0, 10.0)))
    requires H == [HoldingA(), HoldingB()] && ids == ["A", "B"]
    ensures CalculateAfterHarvest(Some(base), H, ids) ==
      Snapshot(Bucket(100.0, 50.0), Bucket(65.0, 10.0))
  {
    SelectionAB(H, ids);
  }

  /** The cards of a loaded, up-to-date store with a selection, given the
      baseline and the projected snapshot. */
  lemma CardsOf(s: State, base: Snapshot, projected: Snapshot)
    requires Loaded(s) && Consistent(s) && HasSelection(s)
    requires Normalize(Some(s.capitalGains)) == base
    requires CalculateAfterHarvest(Some(s.capitalGains), s.holdings, s.selectedHoldings) == projected
    ensures Renderable(s)
    ensures PreRealised(s) == Fin(SnapshotNet(base)) && PostRealised(s) == Fin(SnapshotNet(projected))
  {
    RealisedOfCanonical(s.capitalGains);
    RealisedOfCanonical(s.afterHarvestGains.value);
  }

  /** A loaded store in which both holdings are selected and the snapshot
      is up to date shows realised gains of 120 before and 105 after, and a
      saving of 15. */
  lemma CardsAB(s: State, show: real -> string)
    requires s.holdings == [HoldingA(), HoldingB()] && s.selectedHoldings == ["A", "B"]
    requires s.capitalGains == AsObject(Snapshot(Bucket(100.0, 20.0), Bucket(50.0, 10.0)))
    requires Loaded(s) && Consistent(s)
    ensures Renderable(s)
    ensures PreRealised(s) == Fin(120.0) && PostRealised(s) == Fin(105.0)
    ensures ShowSaving(s) && RenderCards(s, show).saving == Some("$ " + show(15.0))
  {
    ProjectedAB(s.capitalGains, s.holdings, s.selectedHoldings);
    CardsOf(s, Snapshot(Bucket(100.0, 20.0), Bucket(50.0, 10.0)), Snapshot(Bucket(100.0, 50.0), Bucket(65.0, 10.0)));
    SavingIsTheDrop(s, show);
  }
}

=== FILE: wrappers.dfy ===
/** Optional values: every field the original reads through `?.`, `??` or a
    truthiness test is an `Option` here. */
module Wrappers {

  datatype Option<+T> = None | Some(value: T)
}
